=== FILE: README.md ===
# Tourist safety front end: reducers and state machines in Dafny

The repository is a Next.js front end for a tourist-safety service. Most of it is presentation. The
decisions it makes live in a handful of React state updaters and one API route. This project models
each of them as a pure transition function over an immutable state, with verified contracts and lemmas.
Every user action, socket event, timer firing and HTTP outcome is an input event.

| module | file | models |
|---|---|---|
| `Common` | common.dfy | `Option`, for `undefined`/`null` |
| `KeyedLists` | keyed_lists.dfy | the `filter(x => x.id !== k)` and `find(x => x.id === k)` idioms every list uses |
| `Connection` | connection.dfy | the live map's `{connected, reconnecting, error}` status record and its status chip |
| `LiveTracking` | live_tracking.dfy | the live map: peer list, marker table, socket and watch handles, tracking buttons |
| `AlertApi` | alert_api.dfy | the `/api/emergency` handler: validation, fan-out outcomes, status code and counters |
| `EmergencyButton` | emergency_button.dfy | the emergency button: countdown, send, outcome, revert and reset |
| `Booking` | booking.dfy | the four-step booking wizard: steps, guards, screens, edit jumps, form fields, package lookup |
| `AuthorityMap` | authority_map.dfy | the authority map's marker and geofence lists |
| `AuthPage` | auth_page.dfy | the Login/Register page |

Several of the models have an event type, a `Step` function and a `Run` fold. A ghost `Valid`
predicate states the invariant, and `StepPreservesValid` and `RunPreservesValid` prove it holds after
any sequence of events.

The live map reads what it did from an effect log: socket emits, `clearWatch` calls and alerts. The
emergency button keeps a list of the request bodies it posted. It also counts the intervals still
running, the timeouts still pending and the requests still in flight, so a timer firing with nothing
behind it changes nothing.

### Behaviour of the code worth knowing

- The `locationUpdate` handler keeps whatever sample arrives last for a participant, older or not.
  There is no timestamp comparison (`LiveTracking.OlderSampleReplaces`).
- The connection status is a record of two flags and an optional error. Each lifecycle handler
  overwrites it with a fixed value, whatever it was before, and `connect_error` clears both flags
  (`Connection.OnLifecycle`).
- The socket handlers never check which socket, if any, the component holds, so a peer's sample is
  applied even when none is held (`LiveTracking.UpdateWithoutSocket`).
- The roster handler keeps the roster's duplicate entries (`LiveTracking.RosterReplacesPeers`).

## Model

| member | source | states |
|---|---|---|
| `KeyedLists.RemoveKey` | src/components/tourist/home/components/SessionsChart.tsx:196-198 | no element with the key is left, every element with another key survives, nothing new appears |
| `KeyedLists.FindKey` | src/components/tourist/booking/index.tsx:400-401 | absent exactly when no element has the key; otherwise the first element that has it |
| `KeyedLists.RemoveAbsentKey` | src/components/authority/tourists/index.tsx:156-157 | filtering out an id no element carries returns the list unchanged |
| `KeyedLists.RemoveKeyIdempotent` | src/components/tourist/home/components/SessionsChart.tsx:207-209 | filtering the same id twice is filtering it once |
| `KeyedLists.RemoveKeyCounts` | src/components/tourist/home/components/SessionsChart.tsx:196-198 | each element with another key keeps its multiplicity; those with the key have none |
| `KeyedLists.RemoveKeyIsSubsequence` | src/components/authority/tourists/index.tsx:186-187 | the filtered list is a subsequence of the original: the survivors keep their order |
| `KeyedLists.RemoveKeyAppend` | src/components/authority/tourists/index.tsx:137-165 | filtering distributes over concatenation, so an appended entry is filtered on its own |
| `KeyedLists.RemoveKeyDistinct` | src/components/tourist/home/components/SessionsChart.tsx:196-199 | a list with distinct keys still has distinct keys after filtering |
| `Connection.OnLifecycle` | src/components/tourist/home/components/SessionsChart.tsx:161-190 | connected iff the event is `connect`, reconnecting iff `reconnecting`, an error iff `connect_error` (with its message); never both flags |
| `Connection.OnGeolocationError` | src/components/tourist/home/components/SessionsChart.tsx:295-301 | a location error keeps both flags and sets the error to "Location error: " followed by the message |
| `Connection.ChipProps` | src/components/tourist/home/components/SessionsChart.tsx:109-131 | "Reconnecting..." (warning) while reconnecting, else "Connected" (success) while connected, else the error text if non-empty or "Disconnected" (error) |
| `Connection.ChipAfterLifecycle` | src/components/tourist/home/components/SessionsChart.tsx:161-190 | the chip each lifecycle event leads to, whatever was shown before, including an empty error message showing "Disconnected" |
| `Connection.GeolocationErrorOnChip` | src/components/tourist/home/components/SessionsChart.tsx:295-301 | a location error is hidden on the chip while connected or reconnecting, and is the chip's text otherwise |
| `LiveTracking.Init` | src/components/tourist/home/components/SessionsChart.tsx:84-94 | the mounted component satisfies the invariant, has no peers, markers, socket or watch, and shows "Disconnected" |
| `LiveTracking.TouchMarker` | src/components/tourist/home/components/SessionsChart.tsx:380-426 | an existing marker only gets the new `lastUpdate`; a missing one is created with the owner flag; other markers are untouched |
| `LiveTracking.TouchRoster` | src/components/tourist/home/components/SessionsChart.tsx:216-220 | every roster entry other than the local user has a marker carrying the time of its last roster entry; markers the roster does not name, and the local user's own, are unchanged; new markers are not the local user's |
| `LiveTracking.TouchRosterKeys` | src/components/tourist/home/components/SessionsChart.tsx:216-220 | the marker ids afterwards are exactly the earlier ids plus the roster ids other than the local user's |
| `LiveTracking.RemoveMarker` | src/components/tourist/home/components/SessionsChart.tsx:430-436 | the table loses exactly the id's entry; an absent id leaves it unchanged |
| `LiveTracking.UpsertPeer` | src/components/tourist/home/components/SessionsChart.tsx:195-199 | the sample is last and is the only entry for its id; other entries survive; nothing new besides the sample |
| `LiveTracking.OnLocationUpdate` | src/components/tourist/home/components/SessionsChart.tsx:193-203 | a sample carrying the local id changes nothing; a peer's sample replaces that peer's entries in the list (`UpsertPeer`) and, with the map present, touches its marker as not the local user's; nothing else changes |
| `LiveTracking.OnUserDisconnected` | src/components/tourist/home/components/SessionsChart.tsx:206-211 | every entry for the id leaves the list (the filter by id) and its marker is deleted; every other marker keeps its value; nothing else changes |
| `LiveTracking.OnConnectedUsers` | src/components/tourist/home/components/SessionsChart.tsx:214-221 | the new list holds no entry for the local user; the markers are the roster's touches with the map present and unchanged without it; nothing else changes |
| `LiveTracking.OnSocketLifecycle` | src/components/tourist/home/components/SessionsChart.tsx:161-190 | the status becomes the event's record, and a held socket's `connected` flag becomes true iff the event is `connect` |
| `LiveTracking.OrUndefined` | src/components/tourist/home/components/SessionsChart.tsx:271-272 | a JavaScript `or undefined`: present iff the value is present, a number and non-zero (null, 0 and NaN all become undefined), and then the same number |
| `LiveTracking.MakeSample` | src/components/tourist/home/components/SessionsChart.tsx:266-275 | the sample carries the local id, the fix's coordinates and accuracy, the clock, the battery reading, and heading and speed with zero, NaN or null turned into undefined |
| `LiveTracking.OnPositionFix` | src/components/tourist/home/components/SessionsChart.tsx:263-293 | the sample becomes the current location and is emitted iff the socket exists and is connected; with the map present only the own marker is touched, with the sample's time; without it the markers are unchanged |
| `LiveTracking.OnPositionError` | src/components/tourist/home/components/SessionsChart.tsx:295-301 | only the status's error changes, to "Location error: " followed by the message |
| `LiveTracking.ConnectSocket` | src/components/tourist/home/components/SessionsChart.tsx:145-159 | a new, not yet connected socket replaces the held one; nothing else changes |
| `LiveTracking.DisconnectSocket` | src/components/tourist/home/components/SessionsChart.tsx:225-230 | no socket is held afterwards; nothing else changes |
| `LiveTracking.StartTracking` | src/components/tourist/home/components/SessionsChart.tsx:246-311 | without geolocation only the alert is raised; otherwise no effect is logged, the watch is set, settings are enabled, and a new unconnected socket is opened only if none is held |
| `LiveTracking.StopTracking` | src/components/tourist/home/components/SessionsChart.tsx:321-327 | the watch is cleared, with a `clearWatch` effect only if one was set, and settings are disabled |
| `LiveTracking.OnTrackingButton` | src/components/tourist/home/components/SessionsChart.tsx:134-142 | the button does nothing unless the status is connected; otherwise tracking flips |
| `LiveTracking.OnConnectionButton` | src/components/tourist/home/components/SessionsChart.tsx:494-494 | disconnects when the status says connected, otherwise opens a new socket |
| `LiveTracking.OnUnmount` | src/components/tourist/home/components/SessionsChart.tsx:462-467 | after unmount no watch and no socket are held, settings are disabled, and a `clearWatch` is logged iff a watch was set |
| `LiveTracking.TotalUsers` | src/components/tourist/home/components/SessionsChart.tsx:106-106 | the users count is the peer count, plus one exactly while tracking |
| `LiveTracking.PeerLocationUpdate` | src/components/tourist/home/components/SessionsChart.tsx:195-199 | after a peer's sample it is the last entry and the only one for its id; the rest keep their order and multiplicity; distinct ids stay distinct |
| `LiveTracking.PeerMarkerUpdate` | src/components/tourist/home/components/SessionsChart.tsx:380-426 | with the map present, the peer's marker carries the sample's time and is not the local user's; no other marker changes |
| `LiveTracking.UserDisconnectedRemoves` | src/components/tourist/home/components/SessionsChart.tsx:206-211 | every entry and the marker of the id go; the rest keep their order and multiplicity; an unknown id changes nothing |
| `LiveTracking.UserDisconnectedIdempotent` | src/components/tourist/home/components/SessionsChart.tsx:206-211 | a second disconnect of the same id changes nothing |
| `LiveTracking.RosterReplacesPeers` | src/components/tourist/home/components/SessionsChart.tsx:214-215 | the list becomes the roster without the local user, in roster order with the roster's duplicates, whatever it held before |
| `LiveTracking.EchoSuppressed` | src/components/tourist/home/components/SessionsChart.tsx:193-194 | a relayed sample with the local id leaves the whole state unchanged |
| `LiveTracking.EmitOnlyWhileConnected` | src/components/tourist/home/components/SessionsChart.tsx:281-283 | the effect log only grows, and every new emit happened over a connected socket and carries the local id |
| `LiveTracking.StopTrackingTwice` | src/components/tourist/home/components/SessionsChart.tsx:321-327 | stopping twice is stopping once, and at most one `clearWatch` results |
| `LiveTracking.StepPreservesValid` | src/components/tourist/home/components/SessionsChart.tsx:161-221 | every event keeps the invariant: no self entry, well-formed markers with one per listed peer, never both flags, only own samples emitted, settings enabled iff a watch is set |
| `LiveTracking.RunPreservesValid` | src/components/tourist/home/components/SessionsChart.tsx:161-221 | the invariant holds after any sequence of events |
| `LiveTracking.RosterExcludesSelf` | src/components/tourist/home/components/SessionsChart.tsx:214-215 | a roster [B, C] received by B lists only C |
| `LiveTracking.OlderSampleReplaces` | src/components/tourist/home/components/SessionsChart.tsx:193-203 | a sample older than the stored one still replaces it; there is no stale-update rejection |
| `LiveTracking.UpdateWithoutSocket` | src/components/tourist/home/components/SessionsChart.tsx:193-203 | a peer's sample is applied even when no socket is held |
| `AlertApi.CountSent` | src/lib/api/emergency.js:200-201 | the count of successes is at most the number of outcomes, 0 iff all failed, and all of them iff all succeeded |
| `AlertApi.Results` | src/lib/api/emergency.js:165-197 | one result per contact, in contact order, carrying that contact's outcome |
| `AlertApi.Aggregate` | src/lib/api/emergency.js:199-236 | sent + failed = total = number of contacts; success iff sent > 0; 500 iff none succeeded, with the "Failed to send" error; 207 iff some succeeded and some failed, with the warning naming both counts; 200 iff there were contacts and all succeeded, with no extra text; the request's timestamp is echoed |
| `AlertApi.Handle` | src/lib/api/emergency.js:16-245 | non-POST gives 405; a missing body gives 500; a missing `userInfo`, `emergencyContacts` or `message` gives 400; a transport that throws gives 500; a report comes back iff the request is a valid POST and the transport was built |
| `AlertApi.AttemptedSendsMatchReport` | src/lib/api/emergency.js:165-240 | the handler attempts exactly as many mails as its report has results, and none when it answers with an error; a valid POST with a built transport mails every contact |
| `AlertApi.EmptyContactsFail` | src/lib/api/emergency.js:222-227 | an empty contact list passes validation and ends in a 500 report |
| `AlertApi.StatusCodes` | src/lib/api/emergency.js:16-245 | the handler only answers 200, 207, 400, 405 or 500 |
| `AlertApi.SentPlusFailed` | src/lib/api/emergency.js:200-201 | successes and failures together count every outcome |
| `AlertApi.FailedCountsFailures` | src/lib/api/emergency.js:201-217 | `emailsFailed` is the number of failed outcomes |
| `AlertApi.HandleAsWritten` | src/lib/api/emergency.js:39-47 | with the factory name the code calls, every valid POST ends in 500 "Internal server error" and no report is ever produced |
| `AlertApi.HandleCorrected` | src/lib/api/emergency.js:39-47 | with the factory the library exports, a report comes back iff the request is a valid POST, and it is the aggregate of the delivery outcomes |
| `AlertApi.TransportFactoryCounterexample` | src/lib/api/emergency.js:39-39 | one contact with one delivered mail: 500 as written, 200 with one mail sent when corrected |
| `EmergencyButton.Payload` | src/components/tourist/emergency/index.tsx:54-61 | severity "HIGH", location equal to the user's, the user info, contacts and clock as given, a message that starts with "EMERGENCY ALERT: " and the name and ends with the location and ". Immediate assistance required." |
| `EmergencyButton.TickCountdown` | src/components/tourist/emergency/index.tsx:38-45 | fires iff the countdown is 1; n > 1 becomes n - 1; 1, 0 and null become null |
| `EmergencyButton.Activate` | src/components/tourist/emergency/index.tsx:35-47 | the countdown starts at 3 and one more interval runs |
| `EmergencyButton.OnClick` | src/components/tourist/emergency/index.tsx:122-126 | a disabled button ignores clicks; otherwise a click starts the countdown, or cancels the running one |
| `EmergencyButton.Send` | src/components/tourist/emergency/index.tsx:49-69 | loading and activated are set, and exactly one request carrying the payload goes out |
| `EmergencyButton.OnTick` | src/components/tourist/emergency/index.tsx:37-46 | a firing with no interval running changes nothing; the firing that finds 1 clears the countdown, stops its own interval and appends exactly the alert payload stamped with the clock, setting loading and activated with one more request in flight; any other firing only moves the countdown |
| `EmergencyButton.OnHttpResult` | src/components/tourist/emergency/index.tsx:71-91 | status "success" iff the response was ok, "error" otherwise; loading off; one fewer request in flight and one revert timeout scheduled; nothing else changes |
| `EmergencyButton.OnRevertTimer` | src/components/tourist/emergency/index.tsx:77-88 | a pending timeout makes the button inactive, idle and enabled again and is used up; nothing else changes (the countdown and any running interval included) |
| `EmergencyButton.OnTryAgain` | src/components/tourist/emergency/index.tsx:95-99 | from the error state: inactive, idle, no countdown, enabled; from any other state nothing changes; loading, intervals, requests and timeouts are never touched |
| `EmergencyButton.InitialValid` | src/components/tourist/emergency/index.tsx:30-33 | the mounted button satisfies the invariant, is enabled and idle, with no countdown and nothing sent |
| `EmergencyButton.StepPreservesValid` | src/components/tourist/emergency/index.tsx:35-99 | every input keeps the countdown within 1..3 with an interval running, and loading only while a request is in flight |
| `EmergencyButton.RunPreservesValid` | src/components/tourist/emergency/index.tsx:35-99 | the invariant holds after any sequence of inputs |
| `EmergencyButton.ThreeTicksSendOnce` | src/components/tourist/emergency/index.tsx:36-46 | a click and three ticks send exactly one alert, built at the third tick, and leave it loading |
| `EmergencyButton.TicksWithoutCountdown` | src/components/tourist/emergency/index.tsx:44-44 | with no countdown, any number of ticks changes nothing |
| `EmergencyButton.CancelStopsSend` | src/components/tourist/emergency/index.tsx:94-94 | after a cancelling click no later tick sends anything |
| `EmergencyButton.OutcomeAfterSend` | src/components/tourist/emergency/index.tsx:71-91 | after a send, the status is "success" iff ok; the button stays activated and is disabled iff ok |
| `EmergencyButton.PayloadAccepted` | src/components/tourist/emergency/index.tsx:54-61 | the button's payload passes the handler's validation and gets a report |
| `Booking.WithText` | src/components/tourist/booking/index.tsx:126-131 | the named text field takes the new value; every other field and both checkboxes keep theirs |
| `Booking.WithFlag` | src/components/tourist/booking/index.tsx:133-138 | the named checkbox takes the new value; everything else keeps its value |
| `Booking.WithTextLaws` | src/components/tourist/booking/index.tsx:126-131 | writing back a field's value changes nothing, and the later of two writes wins |
| `Booking.StepContent` | src/components/tourist/booking/index.tsx:480-493 | steps 0..3 have a section, and every other step shows "Unknown step" |
| `Booking.ViewOf` | src/components/tourist/booking/index.tsx:514-545 | completion view iff step 4; Back disabled iff step 0; Next disabled iff step 3 without agreement; "Complete Registration" iff step 3 |
| `Booking.EditTarget` | src/components/tourist/booking/index.tsx:413-453 | the edit buttons jump to steps 0, 1 or 2: personal details, travel information, safety package |
| `Booking.Step` | src/components/tourist/booking/index.tsx:520-545 | nothing changes once completed; an enabled Next or Back moves exactly one step up or down, a disabled one does nothing; edit shortcuts jump only from the review page; a package card selects a listed package only on the package screen; field edits act only on their own screen; a step change never touches the form or the package |
| `Booking.InitialValid` | src/components/tourist/booking/index.tsx:105-124 | the wizard starts valid on personal details, with Back disabled and Next enabled |
| `Booking.StepPreservesValid` | src/components/tourist/booking/index.tsx:532-541 | under the button guards the step stays in 0..4, completion implies agreement, and the selected package exists |
| `Booking.RunPreservesValid` | src/components/tourist/booking/index.tsx:532-541 | the invariant holds after any sequence of user actions |
| `Booking.BackUndoesNext` | src/components/tourist/booking/index.tsx:140-146 | from steps 0..2, Next then Back returns to the same wizard |
| `Booking.CompleteOnlyWithAgreement` | src/components/tourist/booking/index.tsx:540-543 | from the review step, Next completes iff the policies were accepted |
| `Booking.SelectedPackageFound` | src/components/tourist/booking/index.tsx:400-400 | the review page's lookup always finds the selected package |
| `Booking.TouristTypeLookup` | src/components/tourist/booking/index.tsx:401-401 | the initial tourist type reads "Solo Traveler"; an unknown value finds no label |
| `AuthorityMap.AddMarker` | src/components/authority/tourists/index.tsx:137-153 | one marker is appended with the clock as id and the popup given, or the default one; earlier markers are unchanged |
| `AuthorityMap.RemoveMarker` | src/components/authority/tourists/index.tsx:156-165 | no marker with the id remains, the others keep their order and their multiplicity, and an absent id is a no-op |
| `AuthorityMap.AddGeofence` | src/components/authority/tourists/index.tsx:168-183 | one geofence is appended; the defaults are radius 100, "New Geofence" and tag "custom" |
| `AuthorityMap.RemoveGeofence` | src/components/authority/tourists/index.tsx:186-187 | no geofence with the id remains, the others keep their order and their multiplicity, and an absent id is a no-op |
| `AuthorityMap.OnMapClick` | src/components/authority/tourists/index.tsx:207-210 | a click appends a geofence at [lng, lat] with radius 100, "Click Geofence" and tag "click"; earlier geofences and the rest of the board are kept |
| `AuthorityMap.OnAddMarkerButton` | src/components/authority/tourists/index.tsx:419-428 | appends exactly one marker with the clock as id, at the user's position or the fixed default, texted and titled "New Marker"; earlier markers and the rest of the board are kept |
| `AuthorityMap.OnAddGeofenceButton` | src/components/authority/tourists/index.tsx:441-445 | appends exactly one geofence with the clock as id, at the user's position or the fixed default, radius 100, "New Geofence", tag "manual"; earlier geofences and the rest of the board are kept |
| `AuthorityMap.OnAddressSelected` | src/components/authority/tourists/index.tsx:236-248 | a result with coordinates appends one marker titled "Search Result" and keeps the earlier markers and the rest of the board; a result without them changes nothing |
| `AuthorityMap.OnPosition` | src/components/authority/tourists/index.tsx:98-104 | the position is stored as [lng, lat]; nothing else changes |
| `AuthorityMap.OnMapLoad` | src/components/authority/tourists/index.tsx:226-228 | the map is marked loaded and the lists do not change |
| `AuthorityMap.AddThenRemoveMarker` | src/components/authority/tourists/index.tsx:137-165 | adding a marker with a fresh id and then removing that id restores the board |
| `AuthorityMap.RemoveGeofenceIgnoresMap` | src/components/authority/tourists/index.tsx:186-205 | the list after a removal does not depend on whether the map is loaded, and removing twice is removing once |
| `AuthPage.Toggle` | src/app/auth/page.jsx:73-77 | the result is always one of the two modes, and never the current one |
| `AuthPage.LinkLabel` | src/app/auth/page.jsx:79-79 | the link always names the other mode |
| `AuthPage.Prompt` | src/app/auth/page.jsx:68-70 | "Don't have an account? " iff in Login mode, "Already a User? " otherwise |
| `AuthPage.LabelsFollowMode` | src/app/auth/page.jsx:24-79 | the heading and the button read the current mode; the link names the mode it switches to; the confirm field shows iff the link offers Login; the "Don't have an account?" prompt goes with the Register link |
| `AuthPage.Step` | src/app/auth/page.jsx:35-77 | only the link changes the mode; each input updates its own field and nothing else; the confirm input acts only while it is shown, in Register mode |
| `AuthPage.InitialPage` | src/app/auth/page.jsx:16-19 | the page starts in Login mode, offering Register, with no confirm field |
| `AuthPage.StepKeepsMode` | src/app/auth/page.jsx:73-77 | the mode stays Login or Register; toggling twice is the identity; the confirm field appears iff it was absent; the link then names the old mode |
| `AuthPage.ConfirmKeptAcrossToggle` | src/app/auth/page.jsx:49-61 | a confirm password typed in Register mode survives a round trip through Login mode |

## Left out

- Socket.IO itself: transports, reconnection and backoff, the relay server, and which socket delivers
  an event. Events are inputs, whichever socket they come from, including sockets replaced by a
  second `connectSocket` and never closed.
- The socket's own `connected` flag is assumed to follow the lifecycle events (`Link`). Calling
  `disconnect()` produces a `disconnect` event of its own; here that is a separate input.
- The Radar SDK: the map, marker handles, popups, `flyTo`, autocomplete and geofence layers. The
  marker table keeps only id, last update time and owner flag.
- Browser geolocation, the battery API, `Date.now()`, `new Date().toISOString()` and the
  `Math.random` session id are parameters of the events that use them.
- The nodemailer/OAuth2 transport, and the e-mail subject, text and HTML. Each contact's delivery
  outcome is an input.
- The development-only `details` field of a 500 response, and the `messageId`/`error` fields of each
  result.
- `setInterval` and `setTimeout` are tick and timeout inputs. The 1 s, 5 s and 10 s delays are not
  modelled, and the 5 s and 10 s revert timeouts are one input.
- Floating point: the geofence circle polygon, the km/h speed conversion and the scroll easing of the
  landing page.
- The tracking settings' accuracy, timeout and maximum age. They only feed `watchPosition`.
- Presentational components with no logic of their own, and the theme switcher, which wraps a
  library hook.
- The emergency button's default props (real contact addresses and a real name) are not copied. The
  props are a parameter.
- React's development-mode double invocation of state updaters. A double invocation of the
  countdown updater at 1 would send twice.
- AlertApi.Handle: how the framework parses a request without a body is not modelled. A missing body
  is `undefined`, and destructuring it throws (500).
- AlertApi.Handle: a truthy non-array `emergencyContacts` (a string, say) makes `.map` throw and the
  handler answer 500. The model types the contacts as a list of strings, so that case is absent.
- The live map's optional prop callbacks `onLocationUpdate` (SessionsChart.tsx:278) and
  `onConnectionStatusChange` (SessionsChart.tsx:165-189): the only place that mounts the component
  (MainGrid.tsx:70) passes neither, so they never fire.
- LiveTracking.OnTrackingButton: the contract states the guard and the flip of `trackingEnabled`. What
  starting or stopping does is stated by `LiveTracking.StartTracking` and `LiveTracking.StopTracking`.
- Booking.Step: the package cards only offer listed ids. The model makes this a guard (an unlisted id
  is ignored).

## Findings

| source | as written | input that shows it | evidently intended | confidence | as-written member | corrected member |
|---|---|---|---|---|---|---|
| src/lib/api/emergency.js:39 | builds the mail transport with `nodemailer.createTransporter(...)`, a name the mail library does not export, so the call throws a TypeError and the catch-all answers 500 | a POST with `userInfo`, one contact and a non-empty `message`: 500 "Internal server error", no mail attempted | `nodemailer.createTransport(...)`, after which the outcomes decide 200/207/500 | not executed; high, since the mail library's documented factory is `createTransport` | `AlertApi.HandleAsWritten` | `AlertApi.HandleCorrected` |

`AlertApi.TransportFactoryCounterexample` shows both on one request. The emergency button's
`EmergencyButton.PayloadAccepted` is stated against the corrected handler.

=== FILE: alert_api.dfy ===
/**
 The emergency-alert HTTP handler (src/lib/api/emergency.js). It rejects anything but POST with 405,
 rejects a body missing `userInfo`, `emergencyContacts` or `message` with 400, mails every contact,
 and reports how many mails went out: 200 when all did, 207 when some did, 500 when none did.
 The mail transport is an input: one delivery outcome per contact, in contact order, and whether
 building the transport threw (the handler's catch-all turns that into 500).
 */
module AlertApi {
  import opened Common

  datatype UserInfo = UserInfo(name: Option<string>, location: Option<string>, phone: Option<string>)

  /** The JSON body; every field may be missing. */
  datatype Body = Body(
    timestamp: Option<string>,
    userInfo: Option<UserInfo>,
    emergencyContacts: Option<seq<string>>,
    location: Option<string>,
    severity: Option<string>,
    message: Option<string>)

  datatype Request = Request(httpMethod: string, body: Option<Body>)

  /** The per-contact record of the `results` array. */
  datatype ContactResult = ContactResult(contact: string, success: bool)

  /** The extra field of a partial or total failure. */
  datatype Note =
    | NoNote
    | PartialWarning(failed: nat, total: nat)   // "Failed to notify <failed> out of <total> contacts"
    | NoneSent                                  // "Failed to send emergency alert to any contacts"

  datatype ResponseBody =
    | ErrorBody(error: string)
    | Report(success: bool, timestamp: Option<string>, emailsSent: nat, emailsFailed: nat,
             totalContacts: nat, results: seq<ContactResult>, note: Note)

  datatype Response = Response(status: int, body: ResponseBody)

  const MethodNotAllowed := "Method not allowed"
  const MissingFields := "Missing required fields: userInfo, emergencyContacts, message"
  const InternalError := "Internal server error"

  /** The validation of line 32: a missing object or array is falsy; so is an empty message (an empty
      contact array is truthy and passes). */
  predicate HasRequiredFields(b: Body) {
    b.userInfo.Some? && b.emergencyContacts.Some? && b.message.Some? && b.message.value != ""
  }

  /** How many outcomes are `true`. */
  function CountSent(outcomes: seq<bool>): (n: nat)
    ensures n <= |outcomes|
    ensures n == 0 <==> forall i :: 0 <= i < |outcomes| ==> !outcomes[i]
    ensures n == |outcomes| <==> forall i :: 0 <= i < |outcomes| ==> outcomes[i]
  {
    if |outcomes| == 0 then 0
    else (if outcomes[0] then 1 else 0) + CountSent(outcomes[1..])
  }

  /** The per-contact results, one per contact in contact order. */
  function Results(contacts: seq<string>, outcomes: seq<bool>): (r: seq<ContactResult>)
    requires |outcomes| == |contacts|
    ensures |r| == |contacts|
    ensures forall i :: 0 <= i < |r| ==> r[i].contact == contacts[i] && r[i].success == outcomes[i]
  {
    seq(|contacts|, i requires 0 <= i < |contacts| => ContactResult(contacts[i], outcomes[i]))
  }

  /** The response once every contact has been tried. */
  function Aggregate(timestamp: Option<string>, contacts: seq<string>, outcomes: seq<bool>): (r: Response)
    requires |outcomes| == |contacts|
    ensures r.body.Report?
    ensures r.body.emailsSent + r.body.emailsFailed == r.body.totalContacts == |contacts|
    ensures r.body.results == Results(contacts, outcomes)
    ensures r.body.success <==> r.body.emailsSent > 0
    ensures r.status == 500 <==> forall i :: 0 <= i < |outcomes| ==> !outcomes[i]
    ensures r.status == 207 <==>
              (exists i :: 0 <= i < |outcomes| && outcomes[i]) && (exists j :: 0 <= j < |outcomes| && !outcomes[j])
    ensures r.status == 200 <==> |outcomes| > 0 && forall i :: 0 <= i < |outcomes| ==> outcomes[i]
    ensures r.status in {200, 207, 500}
    ensures r.body.timestamp == timestamp
    ensures r.status == 500 ==> r.body.note == NoneSent
    ensures r.status == 207 ==> r.body.note == PartialWarning(r.body.emailsFailed, |contacts|)
    ensures r.status == 200 ==> r.body.note == NoNote
  {
    var sent := CountSent(outcomes);
    var failed := |outcomes| - sent;
    var report := Report(sent > 0, timestamp, sent, failed, |contacts|, Results(contacts, outcomes), NoNote);
    if sent == 0 then Response(500, report.(note := NoneSent))
    else if failed > 0 then Response(207, report.(note := PartialWarning(failed, |contacts|)))
    else Response(200, report)
  }

  /** One outcome per contact whenever the request carries a contact list. */
  predicate OutcomesMatch(req: Request, outcomes: seq<bool>) {
    req.body.Some? && req.body.value.emergencyContacts.Some? ==>
      |outcomes| == |req.body.value.emergencyContacts.value|
  }

  /** The handler. `transportThrows` says whether building the mail transport raised an exception. */
  function Handle(req: Request, outcomes: seq<bool>, transportThrows: bool): (r: Response)
    requires OutcomesMatch(req, outcomes)
    ensures req.httpMethod != "POST" ==> r == Response(405, ErrorBody(MethodNotAllowed))
    ensures req.httpMethod == "POST" && req.body.None? ==> r == Response(500, ErrorBody(InternalError))
    ensures req.httpMethod == "POST" && req.body.Some? && !HasRequiredFields(req.body.value) ==>
              r == Response(400, ErrorBody(MissingFields))
    ensures req.httpMethod == "POST" && req.body.Some? && HasRequiredFields(req.body.value) && transportThrows ==>
              r == Response(500, ErrorBody(InternalError))
    ensures r.body.Report? <==>
              req.httpMethod == "POST" && req.body.Some? && HasRequiredFields(req.body.value) && !transportThrows
    ensures r.body.ErrorBody? ==> r.status in {400, 405, 500}
  {
    if req.httpMethod != "POST" then Response(405, ErrorBody(MethodNotAllowed))
    else if req.body.None? then Response(500, ErrorBody(InternalError))  // destructuring `undefined` throws
    else if !HasRequiredFields(req.body.value) then Response(400, ErrorBody(MissingFields))
    else if transportThrows then Response(500, ErrorBody(InternalError))
    else Aggregate(req.body.value.timestamp, req.body.value.emergencyContacts.value, outcomes)
  }

  /** The number of mails the handler attempts: none unless the request is a valid POST. */
  function AttemptedSends(req: Request, transportThrows: bool): (n: nat)
    ensures n > 0 ==> req.httpMethod == "POST" && req.body.Some? && HasRequiredFields(req.body.value)
    ensures req.httpMethod != "POST" ==> n == 0
  {
    if req.httpMethod == "POST" && req.body.Some? && HasRequiredFields(req.body.value) && !transportThrows
    then |req.body.value.emergencyContacts.value|
    else 0
  }

  /** The handler attempts one mail per result it reports, and none when it answers with an error: a valid
      POST whose transport was built mails every contact, anything else mails nobody. */
  lemma AttemptedSendsMatchReport(req: Request, outcomes: seq<bool>, transportThrows: bool)
    requires OutcomesMatch(req, outcomes)
    ensures var r := Handle(req, outcomes, transportThrows);
      AttemptedSends(req, transportThrows) == (if r.body.Report? then |r.body.results| else 0)
    ensures ValidPost(req) && !transportThrows ==>
              AttemptedSends(req, transportThrows) == |req.body.value.emergencyContacts.value|
  {
  }

  /** An empty contact list is accepted by validation and ends in 500: no mail could be sent. */
  lemma EmptyContactsFail(b: Body)
    requires HasRequiredFields(b) && b.emergencyContacts == Some([])
    ensures Handle(Request("POST", Some(b)), [], false).status == 500
    ensures Handle(Request("POST", Some(b)), [], false).body.Report?
  {
  }

  /** Every response status is one of the five the handler can produce. */
  lemma StatusCodes(req: Request, outcomes: seq<bool>, transportThrows: bool)
    requires OutcomesMatch(req, outcomes)
    ensures Handle(req, outcomes, transportThrows).status in {200, 207, 400, 405, 500}
  {
  }

  /** Successes and failures partition the outcomes. */
  lemma {:induction false} SentPlusFailed(outcomes: seq<bool>)
    ensures CountSent(outcomes) + CountSent(Negate(outcomes)) == |outcomes|
  {
    if |outcomes| > 0 {
      SentPlusFailed(outcomes[1..]);
      assert Negate(outcomes)[1..] == Negate(outcomes[1..]);
    }
  }

  /** The outcomes with success and failure swapped. */
  function Negate(outcomes: seq<bool>): (r: seq<bool>)
    ensures |r| == |outcomes|
    ensures forall i :: 0 <= i < |r| ==> r[i] == !outcomes[i]
  {
    seq(|outcomes|, i requires 0 <= i < |outcomes| => !outcomes[i])
  }

  /** `emailsFailed` counts the failures exactly as `emailsSent` counts the successes. */
  lemma FailedCountsFailures(t: Option<string>, contacts: seq<string>, outcomes: seq<bool>)
    requires |outcomes| == |contacts|
    ensures Aggregate(t, contacts, outcomes).body.emailsFailed == CountSent(Negate(outcomes))
  {
    SentPlusFailed(outcomes);
  }
  // ---------------------------------------------------------------------------------------------
  // The transport factory

  /** The mail library's transport factory, as the library exports it. */
  const MailerFactories: set<string> := {"createTransport"}

  /** The name the handler calls on line 39. */
  const CalledFactory := "createTransporter"

  /** A valid POST: the handler gets past validation. */
  predicate ValidPost(req: Request) {
    req.httpMethod == "POST" && req.body.Some? && HasRequiredFields(req.body.value)
  }

  /** The handler as written: calling a factory the library does not export throws, so the catch-all
      answers every valid POST with 500 before any mail is attempted. */
  function HandleAsWritten(req: Request, outcomes: seq<bool>): (r: Response)
    requires OutcomesMatch(req, outcomes)
    ensures ValidPost(req) ==> r == Response(500, ErrorBody(InternalError))
    ensures r.body.ErrorBody?
  {
    Handle(req, outcomes, CalledFactory !in MailerFactories)
  }

  /** The handler with the factory the library exports: a valid POST always reaches the mail loop,
      and its status reflects the delivery outcomes. */
  function HandleCorrected(req: Request, outcomes: seq<bool>): (r: Response)
    requires OutcomesMatch(req, outcomes)
    ensures r.body.Report? <==> ValidPost(req)
    ensures ValidPost(req) ==>
              r == Aggregate(req.body.value.timestamp, req.body.value.emergencyContacts.value, outcomes)
    ensures !ValidPost(req) ==> r == HandleAsWritten(req, outcomes)
  {
    Handle(req, outcomes, "createTransport" !in MailerFactories)
  }

  /** One contact, one delivered mail: the handler as written answers 500, the corrected one 200. */
  lemma TransportFactoryCounterexample()
    ensures var req := Request("POST", Some(Body(None, Some(UserInfo(Some("Asha"), None, None)),
                                                 Some(["contact@example.org"]), None, Some("HIGH"), Some("help"))));
      && HandleAsWritten(req, [true]).status == 500
      && HandleCorrected(req, [true]).status == 200
      && HandleCorrected(req, [true]).body.emailsSent == 1
  {
    var outcomes := [true];
    assert CountSent(outcomes) == 1 by {
      assert CountSent(outcomes[1..]) == 0;
    }
  }
}

=== FILE: auth_page.dfy ===
/**
 The sign-in page (src/app/auth/page.jsx): a two-state Login/Register mode with the texts derived
 from it, and three controlled inputs. The mode is kept as the string the page stores.
 */
module AuthPage {
  const Login := "Login"
  const Register := "Register"

  datatype Page = Page(authMode: string, email: string, password: string, confirmPassword: string)

  const Initial := Page(Login, "", "", "")

  /** The modes the page can be in. */
  predicate Valid(p: Page) {
    p.authMode == Login || p.authMode == Register
  }

  /** The link's updater: Register after Login, Login after anything else. */
  function Toggle(mode: string): (r: string)
    ensures (r == Login || r == Register) && r != mode
  {
    if mode == Login then Register else Login
  }

  /** The other mode, shown as the link's label. */
  function LinkLabel(p: Page): (s: string)
    ensures s != p.authMode && (s == Login || s == Register)
  {
    Toggle(p.authMode)
  }

  /** The line before the link. */
  function Prompt(p: Page): (s: string)
    ensures p.authMode == Login <==> s == "Don't have an account? "
    ensures p.authMode != Login <==> s == "Already a User? "
  {
    if p.authMode == Login then "Don't have an account? " else "Already a User? "
  }

  /** The heading. */
  function Title(p: Page): string {
    p.authMode
  }

  /** The submit button's text. */
  function ButtonText(p: Page): string {
    p.authMode
  }

  /** The confirm-password input is rendered only in Register mode. */
  predicate ShowConfirm(p: Page) {
    p.authMode == Register
  }

  datatype Input = ToggleLink | EmailInput(v: string) | PasswordInput(v: string) | ConfirmInput(v: string)

  function Step(p: Page, i: Input): (r: Page)
    ensures i.ToggleLink? ==> r == p.(authMode := Toggle(p.authMode))
    ensures !i.ToggleLink? ==> r.authMode == p.authMode
    ensures i.EmailInput? ==> r == p.(email := i.v)
    ensures i.PasswordInput? ==> r == p.(password := i.v)
    ensures i.ConfirmInput? ==> r == (if ShowConfirm(p) then p.(confirmPassword := i.v) else p)
  {
    match i
    case ToggleLink => p.(authMode := Toggle(p.authMode))
    case EmailInput(v) => p.(email := v)
    case PasswordInput(v) => p.(password := v)
    // the input only exists in Register mode, so only then can it fire
    case ConfirmInput(v) => if ShowConfirm(p) then p.(confirmPassword := v) else p
  }

  /** The page starts in Login mode, with the link offering Register and no confirm field. */
  lemma InitialPage()
    ensures Valid(Initial) && Initial.authMode == "Login"
    ensures LinkLabel(Initial) == "Register" && !ShowConfirm(Initial)
  {
  }

  /** Every input keeps the mode one of the two, and clicking the link twice returns to the same page. */
  lemma StepKeepsMode(p: Page, i: Input)
    requires Valid(p)
    ensures Valid(Step(p, i))
    ensures Step(Step(p, ToggleLink), ToggleLink) == p
    ensures ShowConfirm(Step(p, ToggleLink)) <==> !ShowConfirm(p)
    ensures LinkLabel(Step(p, ToggleLink)) == p.authMode
  {
  }

  /** The heading and the button name the current mode, the link names the mode it switches to, and the
      confirm field is shown exactly when the link offers Login. */
  lemma LabelsFollowMode(p: Page)
    requires Valid(p)
    ensures Title(p) == ButtonText(p) == p.authMode
    ensures LinkLabel(p) == Toggle(p.authMode) == Step(p, ToggleLink).authMode
    ensures ShowConfirm(p) <==> LinkLabel(p) == Login
    ensures Prompt(p) == "Don't have an account? " <==> LinkLabel(p) == Register
  {
  }

  /** A value typed in Register mode survives a round trip through Login mode. */
  lemma ConfirmKeptAcrossToggle(p: Page, v: string)
    requires p.authMode == Register
    ensures var q := Step(Step(Step(p, ConfirmInput(v)), ToggleLink), ToggleLink);
      q.confirmPassword == v && ShowConfirm(q)
  {
  }
}

=== FILE: authority_map.dfy ===
/**
 The authority map's marker and geofence lists (src/components/authority/tourists/index.tsx).
 Markers and geofences are appended with an id taken from the clock and removed by id; the map
 layers that mirror them are rebuilt from the lists and are not modelled. Coordinates are kept
 as an opaque `[lng, lat]` pair and the clock reading is a parameter.
 */
module AuthorityMap {
  import opened Common
  import opened KeyedLists

  /** A `[lng, lat]` pair. */
  datatype LngLat = LngLat(lng: real, lat: real)

  /** A popup card: a title line and a body line. */
  datatype Popup = Popup(title: string, body: string)

  datatype MarkerData = MarkerData(id: int, coordinates: LngLat, text: string, popup: Popup)

  datatype GeofenceData = GeofenceData(id: int, coordinates: LngLat, radius: int, description: string, tag: string)

  datatype Board = Board(
    markers: seq<MarkerData>,
    geofences: seq<GeofenceData>,
    userLocation: Option<LngLat>,
    mapLoaded: bool)

  function MarkerId(m: MarkerData): int {
    m.id
  }

  function GeofenceId(g: GeofenceData): int {
    g.id
  }

  /** Where the add buttons place things when the user's position is unknown. */
  const FallbackLocation := LngLat(-73.9911, 40.7342)

  const DefaultRadius := 100

  const Initial := Board(
    [MarkerData(1, LngLat(-73.9910078, 40.7342465), "Radar HQ", Popup("Radar HQ", "Main office location")),
     MarkerData(2, LngLat(-73.990389, 40.735862), "Union Square", Popup("Union Square", "Popular NYC location"))],
    [GeofenceData(1, LngLat(17.918524, 79.444832), 100, "Radar HQ Geofence", "office")],
    None,
    false)

  /** The popup `addMarker` uses when none is given: the marker's text over "Custom marker". */
  function DefaultPopup(text: string): Popup {
    Popup(text, "Custom marker")
  }

  /** `addMarker`: exactly one marker is appended; every earlier one stays where it was. */
  function AddMarker(b: Board, now: int, coordinates: LngLat, text: string, popup: Option<Popup>): (r: Board)
    ensures |r.markers| == |b.markers| + 1 && r.markers[..|b.markers|] == b.markers
    ensures var m := r.markers[|b.markers|];
      m.id == now && m.coordinates == coordinates && m.text == text
      && m.popup == (if popup.Some? then popup.value else DefaultPopup(text))
    ensures r == b.(markers := r.markers)
  {
    var m := MarkerData(now, coordinates, text, popup.GetOr(DefaultPopup(text)));
    b.(markers := b.markers + [m])
  }

  /** `removeMarker`: every marker with that id goes; the rest keep their order. */
  function RemoveMarker(b: Board, id: int): (r: Board)
    ensures forall i :: 0 <= i < |r.markers| ==> r.markers[i].id != id
    ensures forall i :: 0 <= i < |b.markers| && b.markers[i].id != id ==> b.markers[i] in r.markers
    ensures IsSubsequence(r.markers, b.markers)
    ensures forall v: MarkerData :: v.id != id ==> multiset(r.markers)[v] == multiset(b.markers)[v]
    ensures (forall i :: 0 <= i < |b.markers| ==> b.markers[i].id != id) ==> r == b
    ensures r == b.(markers := r.markers)
  {
    RemoveKeyIsSubsequence(b.markers, MarkerId, id);
    RemoveKeyCounts(b.markers, MarkerId, id);
    var r := b.(markers := RemoveKey(b.markers, MarkerId, id));
    if forall i :: 0 <= i < |b.markers| ==> b.markers[i].id != id then
      RemoveAbsentKey(b.markers, MarkerId, id);
      r
    else r
  }

  /** `addGeofence` with JavaScript default parameters: radius 100, "New Geofence", tag "custom". */
  function AddGeofence(b: Board, now: int, coordinates: LngLat,
                       radius: Option<int>, description: Option<string>, tag: Option<string>): (r: Board)
    ensures |r.geofences| == |b.geofences| + 1 && r.geofences[..|b.geofences|] == b.geofences
    ensures var g := r.geofences[|b.geofences|];
      && g.id == now && g.coordinates == coordinates
      && g.radius == (if radius.Some? then radius.value else DefaultRadius)
      && g.description == (if description.Some? then description.value else "New Geofence")
      && g.tag == (if tag.Some? then tag.value else "custom")
    ensures r == b.(geofences := r.geofences)
  {
    var g := GeofenceData(now, coordinates, radius.GetOr(DefaultRadius), description.GetOr("New Geofence"), tag.GetOr("custom"));
    b.(geofences := b.geofences + [g])
  }

  /** `removeGeofence`: the list is filtered by id whatever the state of the map. */
  function RemoveGeofence(b: Board, id: int): (r: Board)
    ensures forall i :: 0 <= i < |r.geofences| ==> r.geofences[i].id != id
    ensures forall i :: 0 <= i < |b.geofences| && b.geofences[i].id != id ==> b.geofences[i] in r.geofences
    ensures IsSubsequence(r.geofences, b.geofences)
    ensures forall v: GeofenceData :: v.id != id ==> multiset(r.geofences)[v] == multiset(b.geofences)[v]
    ensures (forall i :: 0 <= i < |b.geofences| ==> b.geofences[i].id != id) ==> r == b
    ensures r == b.(geofences := r.geofences)
  {
    RemoveKeyIsSubsequence(b.geofences, GeofenceId, id);
    RemoveKeyCounts(b.geofences, GeofenceId, id);
    var r := b.(geofences := RemoveKey(b.geofences, GeofenceId, id));
    if forall i :: 0 <= i < |b.geofences| ==> b.geofences[i].id != id then
      RemoveAbsentKey(b.geofences, GeofenceId, id);
      r
    else r
  }

  /** `handleMapClick`: a geofence at the clicked `[lng, lat]`, radius 100, "Click Geofence", tag "click". */
  function OnMapClick(b: Board, now: int, lng: real, lat: real): (r: Board)
    ensures |r.geofences| == |b.geofences| + 1 && r.geofences[..|b.geofences|] == b.geofences
    ensures r.geofences[|b.geofences|] == GeofenceData(now, LngLat(lng, lat), 100, "Click Geofence", "click")
    ensures r == b.(geofences := r.geofences)
  {
    AddGeofence(b, now, LngLat(lng, lat), Some(DefaultRadius), Some("Click Geofence"), Some("click"))
  }

  /** The "Add Marker" button: at the user's position, or the fallback, with its own popup. */
  function OnAddMarkerButton(b: Board, now: int): (r: Board)
    ensures |r.markers| == |b.markers| + 1 && r.markers[..|b.markers|] == b.markers
    ensures r.markers[|b.markers|].coordinates == b.userLocation.GetOr(FallbackLocation)
    ensures b.userLocation.None? ==> r.markers[|b.markers|].coordinates == FallbackLocation
    ensures r.markers[|b.markers|].popup == Popup("New Marker", "Added at current location")
    ensures r.markers[|b.markers|] == MarkerData(now, b.userLocation.GetOr(FallbackLocation), "New Marker",
                                                 Popup("New Marker", "Added at current location"))
    ensures r == b.(markers := r.markers)
  {
    AddMarker(b, now, b.userLocation.GetOr(FallbackLocation), "New Marker", Some(Popup("New Marker", "Added at current location")))
  }

  /** The "Add Geofence" button: at the user's position, or the fallback, tagged "manual". */
  function OnAddGeofenceButton(b: Board, now: int): (r: Board)
    ensures |r.geofences| == |b.geofences| + 1 && r.geofences[..|b.geofences|] == b.geofences
    ensures r.geofences[|b.geofences|].coordinates == b.userLocation.GetOr(FallbackLocation)
    ensures b.userLocation.None? ==> r.geofences[|b.geofences|].coordinates == FallbackLocation
    ensures r.geofences[|b.geofences|].tag == "manual" && r.geofences[|b.geofences|].radius == 100
    ensures r.geofences[|b.geofences|] ==
              GeofenceData(now, b.userLocation.GetOr(FallbackLocation), 100, "New Geofence", "manual")
    ensures r == b.(geofences := r.geofences)
  {
    AddGeofence(b, now, b.userLocation.GetOr(FallbackLocation), Some(DefaultRadius), Some("New Geofence"), Some("manual"))
  }

  /** A search result from the autocomplete box. */
  datatype Address = Address(formattedAddress: string, coordinates: Option<LngLat>)

  /** The autocomplete's `onSelection`: a marker at the address, if it has coordinates. */
  function OnAddressSelected(b: Board, now: int, address: Option<Address>): (r: Board)
    ensures address.None? || address.value.coordinates.None? ==> r == b
    ensures address.Some? && address.value.coordinates.Some? ==>
              |r.markers| == |b.markers| + 1
              && r.markers[|b.markers|] == MarkerData(now, address.value.coordinates.value, address.value.formattedAddress,
                                                      Popup("Search Result", address.value.formattedAddress))
              && r.markers[..|b.markers|] == b.markers
    ensures r == b.(markers := r.markers)
  {
    if address.Some? && address.value.coordinates.Some? then
      AddMarker(b, now, address.value.coordinates.value, address.value.formattedAddress,
                Some(Popup("Search Result", address.value.formattedAddress)))
    else b
  }

  /** The geolocation success callback remembers the position. */
  function OnPosition(b: Board, lng: real, lat: real): (r: Board)
    ensures r.userLocation == Some(LngLat(lng, lat))
    ensures r == b.(userLocation := r.userLocation)
  {
    b.(userLocation := Some(LngLat(lng, lat)))
  }

  /** The map's `load` event. The lists do not depend on it. */
  function OnMapLoad(b: Board): (r: Board)
    ensures r.mapLoaded
    ensures r.markers == b.markers && r.geofences == b.geofences && r.userLocation == b.userLocation
  {
    b.(mapLoaded := true)
  }

  /** Adding a marker and then removing its id restores the list, when no other marker had that id. */
  lemma AddThenRemoveMarker(b: Board, now: int, c: LngLat, text: string, popup: Option<Popup>)
    requires forall i :: 0 <= i < |b.markers| ==> b.markers[i].id != now
    ensures RemoveMarker(AddMarker(b, now, c, text, popup), now) == b
  {
    var m := MarkerData(now, c, text, popup.GetOr(DefaultPopup(text)));
    RemoveKeyAppend(b.markers, [m], MarkerId, now);
    RemoveAbsentKey(b.markers, MarkerId, now);
    assert RemoveKey([m], MarkerId, now) == [];
  }

  /** Removing a geofence does not depend on whether the map has loaded, and removing it twice is removing it once. */
  lemma RemoveGeofenceIgnoresMap(b: Board, id: int)
    ensures RemoveGeofence(b.(mapLoaded := !b.mapLoaded), id).geofences == RemoveGeofence(b, id).geofences
    ensures RemoveGeofence(RemoveGeofence(b, id), id) == RemoveGeofence(b, id)
  {
    RemoveKeyIdempotent(b.geofences, GeofenceId, id);
  }
}

=== FILE: booking.dfy ===
/**
 The tourist booking wizard (src/components/tourist/booking/index.tsx): a four-step form
 (personal details, travel information, safety package, review) with Back/Next buttons, a
 completion view at step 4, edit shortcuts on the review step, and form fields that each update
 one entry of the form record. Every UI control is an input event that only acts when the
 control is on screen and enabled.
 */
module Booking {
  import opened Common
  import opened KeyedLists

  // ---------------------------------------------------------------------------------------------
  // Constants

  const Steps: seq<string> := ["Personal Details", "Travel Information", "Safety Package", "Review & Payment"]

  datatype TouristType = TouristType(value: string, text: string)

  const TouristTypes: seq<TouristType> := [
    TouristType("solo", "Solo Traveler"),
    TouristType("family", "Family (2-4 members)"),
    TouristType("group", "Group (5+ members)"),
    TouristType("business", "Business Travel")]

  datatype SafetyPackage = SafetyPackage(id: string, name: string, price: string, features: seq<string>)

  const SafetyPackages: seq<SafetyPackage> := [
    SafetyPackage("basic", "Basic Safety Package", "₹299",
      ["Digital ID Generation", "Geo-fencing Alerts", "Emergency Contacts", "Basic Support"]),
    SafetyPackage("premium", "Premium Safety Package", "₹599",
      ["All Basic Features", "Real-time Tracking", "IoT Wearable", "Priority Support", "24/7 Monitoring"]),
    SafetyPackage("family", "Family Safety Package", "₹999",
      ["All Premium Features", "Multiple IDs (up to 6)", "Family Dashboard", "Group Tracking", "Dedicated Officer"])]

  function PackageId(p: SafetyPackage): string {
    p.id
  }

  function TypeValue(t: TouristType): string {
    t.value
  }

  // ---------------------------------------------------------------------------------------------
  // Form record

  datatype TextField =
    | FirstName | LastName | Email | Phone | Nationality | IdType | IdNumber
    | Kind | Destination | CheckIn | CheckOut | EmergencyContact | EmergencyPhone | SpecialRequirements

  datatype Flag = OptInTracking | AgreePolicies

  datatype FormData = FormData(
    firstName: string, lastName: string, email: string, phone: string, nationality: string,
    idType: string, idNumber: string, touristType: string, destination: string,
    checkIn: string, checkOut: string, emergencyContact: string, emergencyPhone: string,
    specialRequirements: string, optInTracking: bool, agreePolicies: bool)

  const InitialForm := FormData("", "", "", "", "", "passport", "", "solo", "", "", "", "", "", "", false, false)

  /** The value of a text field. */
  function Text(f: FormData, field: TextField): string {
    match field
    case FirstName => f.firstName
    case LastName => f.lastName
    case Email => f.email
    case Phone => f.phone
    case Nationality => f.nationality
    case IdType => f.idType
    case IdNumber => f.idNumber
    case Kind => f.touristType
    case Destination => f.destination
    case CheckIn => f.checkIn
    case CheckOut => f.checkOut
    case EmergencyContact => f.emergencyContact
    case EmergencyPhone => f.emergencyPhone
    case SpecialRequirements => f.specialRequirements
  }

  /** The value of a checkbox. */
  function Checked(f: FormData, flag: Flag): bool {
    match flag
    case OptInTracking => f.optInTracking
    case AgreePolicies => f.agreePolicies
  }

  /** `handleInputChange(field)`: the named field takes the new value; every other field keeps its own. */
  function WithText(f: FormData, field: TextField, v: string): (r: FormData)
    ensures Text(r, field) == v
    ensures forall g :: g != field ==> Text(r, g) == Text(f, g)
    ensures forall flag :: Checked(r, flag) == Checked(f, flag)
  {
    match field
    case FirstName => f.(firstName := v)
    case LastName => f.(lastName := v)
    case Email => f.(email := v)
    case Phone => f.(phone := v)
    case Nationality => f.(nationality := v)
    case IdType => f.(idType := v)
    case IdNumber => f.(idNumber := v)
    case Kind => f.(touristType := v)
    case Destination => f.(destination := v)
    case CheckIn => f.(checkIn := v)
    case CheckOut => f.(checkOut := v)
    case EmergencyContact => f.(emergencyContact := v)
    case EmergencyPhone => f.(emergencyPhone := v)
    case SpecialRequirements => f.(specialRequirements := v)
  }

  /** `handleCheckboxChange(field)`: the named checkbox takes the new value; nothing else changes. */
  function WithFlag(f: FormData, flag: Flag, b: bool): (r: FormData)
    ensures Checked(r, flag) == b
    ensures forall g :: g != flag ==> Checked(r, g) == Checked(f, g)
    ensures forall field :: Text(r, field) == Text(f, field)
  {
    match flag
    case OptInTracking => f.(optInTracking := b)
    case AgreePolicies => f.(agreePolicies := b)
  }

  /** Writing back what a field already holds changes nothing, and a later write to the same field wins. */
  lemma WithTextLaws(f: FormData, field: TextField, v: string, w: string)
    ensures WithText(f, field, Text(f, field)) == f
    ensures WithText(WithText(f, field, v), field, w) == WithText(f, field, w)
  {
  }

  // ---------------------------------------------------------------------------------------------
  // Screens

  datatype Content = PersonalDetails | TravelInformation | SafetyPackagesChoice | ReviewAndPayment | UnknownStep(text: string)

  /** `getStepContent`. */
  function StepContent(step: int): (c: Content)
    ensures 0 <= step < |Steps| <==> !c.UnknownStep?
    ensures c.UnknownStep? ==> c.text == "Unknown step"
  {
    match step
    case 0 => PersonalDetails
    case 1 => TravelInformation
    case 2 => SafetyPackagesChoice
    case 3 => ReviewAndPayment
    case _ => UnknownStep("Unknown step")
  }

  /** What is on screen below the stepper. */
  datatype View =
    | Completion
    | Page(content: Content, backDisabled: bool, nextDisabled: bool, nextLabel: string)

  datatype Wizard = Wizard(step: int, form: FormData, selectedPackage: string)

  const Initial := Wizard(0, InitialForm, "basic")

  /** The Next button's `disabled`: only the review step blocks, until the policies are accepted. */
  predicate NextDisabled(w: Wizard) {
    w.step == |Steps| - 1 && !w.form.agreePolicies
  }

  function ViewOf(w: Wizard): (v: View)
    ensures v.Completion? <==> w.step == |Steps|
    ensures v.Page? ==> v.content == StepContent(w.step)
    ensures v.Page? ==> (v.backDisabled <==> w.step == 0)
    ensures v.Page? ==> (v.nextDisabled <==> w.step == 3 && !w.form.agreePolicies)
    ensures v.Page? ==> (v.nextLabel == "Complete Registration" <==> w.step == 3)
  {
    if w.step == |Steps| then Completion
    else Page(StepContent(w.step), w.step == 0, NextDisabled(w),
              if w.step == |Steps| - 1 then "Complete Registration" else "Next")
  }

  /** The screen (step) on which a text field is shown. */
  function FieldStep(field: TextField): (n: int)
    ensures n == 0 || n == 1
  {
    match field
    case FirstName | LastName | Email | Phone | Nationality | IdType | IdNumber => 0
    case _ => 1
  }

  /** The screen on which a checkbox is shown. */
  function FlagStep(flag: Flag): (n: int)
    ensures n == 2 || n == 3
  {
    match flag
    case OptInTracking => 2
    case AgreePolicies => 3
  }

  // ---------------------------------------------------------------------------------------------
  // Transitions

  datatype Event =
    | NextButton
    | BackButton
    | EditPersonal | EditTravel | EditPackage
    | ChoosePackage(id: string)
    | Type(field: TextField, value: string)
    | Check(flag: Flag, checked: bool)

  /** The edit shortcuts of the review page jump straight to a section. */
  function EditTarget(e: Event): (n: int)
    requires e.EditPersonal? || e.EditTravel? || e.EditPackage?
    ensures 0 <= n <= 2
    ensures StepContent(n) == (if e.EditPersonal? then PersonalDetails
                               else if e.EditTravel? then TravelInformation else SafetyPackagesChoice)
  {
    if e.EditPersonal? then 0 else if e.EditTravel? then 1 else 2
  }

  /** One user action. Controls that are not on screen, or disabled, do nothing. */
  function Step(w: Wizard, e: Event): (r: Wizard)
    ensures w.step == |Steps| ==> r == w
    ensures r.step != w.step ==> r.form == w.form && r.selectedPackage == w.selectedPackage
    // Next and Back move one step when their button is enabled, and do nothing when it is disabled
    ensures w.step != |Steps| && e.NextButton? && !ViewOf(w).nextDisabled ==> r == w.(step := w.step + 1)
    ensures w.step != |Steps| && e.BackButton? && !ViewOf(w).backDisabled ==> r == w.(step := w.step - 1)
    ensures w.step != |Steps| && e.NextButton? && ViewOf(w).nextDisabled ==> r == w
    ensures w.step != |Steps| && e.BackButton? && ViewOf(w).backDisabled ==> r == w
    // the edit shortcuts act only on the review page, and jump to their section
    ensures (e.EditPersonal? || e.EditTravel? || e.EditPackage?) && w.step != |Steps| ==>
              r == (if StepContent(w.step) == ReviewAndPayment then w.(step := EditTarget(e)) else w)
    // a field edit on its own screen updates that field alone; off screen it does nothing
    ensures e.Type? && w.step != |Steps| ==>
              r == (if w.step == FieldStep(e.field) then w.(form := WithText(w.form, e.field, e.value)) else w)
    // a package card selects its package only on the package screen, and only a listed one
    ensures e.ChoosePackage? && w.step != |Steps| ==>
              r == (if StepContent(w.step) == SafetyPackagesChoice && FindKey(SafetyPackages, PackageId, e.id).Some?
                    then w.(selectedPackage := e.id) else w)
    ensures e.Check? && w.step != |Steps| ==>
              r == (if w.step == FlagStep(e.flag) then w.(form := WithFlag(w.form, e.flag, e.checked)) else w)
  {
    if w.step == |Steps| then w
    else
      match e
      case NextButton => if NextDisabled(w) then w else w.(step := w.step + 1)
      case BackButton => if w.step == 0 then w else w.(step := w.step - 1)
      case EditPersonal | EditTravel | EditPackage =>
        if StepContent(w.step) == ReviewAndPayment then w.(step := EditTarget(e)) else w
      case ChoosePackage(id) =>
        if StepContent(w.step) == SafetyPackagesChoice && FindKey(SafetyPackages, PackageId, id).Some?
        then w.(selectedPackage := id) else w
      case Type(field, v) => if w.step == FieldStep(field) then w.(form := WithText(w.form, field, v)) else w
      case Check(flag, b) => if w.step == FlagStep(flag) then w.(form := WithFlag(w.form, flag, b)) else w
  }

  function Run(w: Wizard, events: seq<Event>): Wizard
    decreases |events|
  {
    if |events| == 0 then w else Run(Step(w, events[0]), events[1..])
  }

  // ---------------------------------------------------------------------------------------------
  // Properties

  /** The wizard is always on a step 0..4, shows the completion page only once the policies were accepted,
      and has a package selected that exists. */
  ghost predicate Valid(w: Wizard) {
    && 0 <= w.step <= |Steps|
    && (w.step == |Steps| ==> w.form.agreePolicies)
    && FindKey(SafetyPackages, PackageId, w.selectedPackage).Some?
  }

  lemma InitialValid()
    ensures Valid(Initial)
    ensures ViewOf(Initial) == Page(PersonalDetails, true, false, "Next")
  {
    assert SafetyPackages[0].id == "basic";
  }

  lemma StepPreservesValid(w: Wizard, e: Event)
    requires Valid(w)
    ensures Valid(Step(w, e))
  {
  }

  lemma {:induction false} RunPreservesValid(w: Wizard, events: seq<Event>)
    requires Valid(w)
    ensures Valid(Run(w, events))
    decreases |events|
  {
    if |events| > 0 {
      StepPreservesValid(w, events[0]);
      RunPreservesValid(Step(w, events[0]), events[1..]);
    }
  }

  /** Next from any step but the last form step, then Back, returns to where the user was. */
  lemma BackUndoesNext(w: Wizard)
    requires Valid(w) && 0 <= w.step < |Steps| - 1
    ensures Step(Step(w, NextButton), BackButton) == w
  {
  }

  /** From the review step, Next completes the registration exactly when the policies are accepted. */
  lemma CompleteOnlyWithAgreement(w: Wizard)
    requires w.step == |Steps| - 1
    ensures Step(w, NextButton).step == |Steps| <==> w.form.agreePolicies
    ensures ViewOf(Step(w, NextButton)).Completion? <==> w.form.agreePolicies
  {
  }

  /** The selected package is always found by the review page's lookup, with the selected id. */
  lemma SelectedPackageFound(w: Wizard)
    requires Valid(w)
    ensures var p := FindKey(SafetyPackages, PackageId, w.selectedPackage);
      p.Some? && p.value.id == w.selectedPackage && p.value in SafetyPackages
  {
  }

  /** The review page's tourist-type label for the initial form is "Solo Traveler"; an unknown value has none. */
  lemma TouristTypeLookup(v: string)
    requires forall i :: 0 <= i < |TouristTypes| ==> TouristTypes[i].value != v
    ensures FindKey(TouristTypes, TypeValue, InitialForm.touristType) == Some(TouristTypes[0])
    ensures FindKey(TouristTypes, TypeValue, v) == None
  {
  }
}

=== FILE: common.dfy ===
/** Values shared by every component model: JavaScript's `undefined`/`null` as an explicit option. */
module Common {

  /** A value that may be absent (`undefined` or `null` in the source). */
  datatype Option<+T> = None | Some(value: T) {

    /** The value, or `default` when absent (JavaScript `x ?? default`). */
    function GetOr(default: T): T {
      match this
      case Some(v) => v
      case None => default
    }
  }
}

=== FILE: connection.dfy ===
/**
 The live map's connection status (src/components/tourist/home/components/SessionsChart.tsx).
 The component keeps a `{connected, reconnecting, error}` record that each socket lifecycle event
 overwrites wholesale, that a geolocation error patches, and from which the status chip is derived.
 */
module Connection {
  import opened Common

  /** The `ConnectionStatus` record; `error` is `undefined` when absent. */
  datatype ConnectionStatus = ConnectionStatus(connected: bool, reconnecting: bool, error: Option<string>)

  /** The status the component starts with: not connected, not reconnecting, no error. */
  const Initial := ConnectionStatus(false, false, None)

  /** The four socket lifecycle events the component listens to. */
  datatype Lifecycle = Connect | Disconnect | Reconnecting | ConnectError(message: string)

  datatype ChipColor = Warning | Success | ErrorColor

  /** The status chip: its label and colour (the icon is Wifi exactly when the colour is Success). */
  datatype Chip = Chip(text: string, color: ChipColor)

  /** The record a lifecycle handler installs; it does not depend on the previous status. */
  function OnLifecycle(e: Lifecycle): (s: ConnectionStatus)
    ensures !(s.connected && s.reconnecting)
    ensures s.connected <==> e.Connect?
    ensures s.reconnecting <==> e.Reconnecting?
    ensures s.error.Some? <==> e.ConnectError?
    ensures e.ConnectError? ==> s.error == Some(e.message)
  {
    match e
    case Connect => ConnectionStatus(true, false, None)
    case Disconnect => ConnectionStatus(false, false, None)
    case Reconnecting => ConnectionStatus(false, true, None)
    case ConnectError(m) => ConnectionStatus(false, false, Some(m))
  }

  /** The geolocation error callback: only the `error` field changes, to "Location error: <message>". */
  function OnGeolocationError(s: ConnectionStatus, message: string): (r: ConnectionStatus)
    ensures r.connected == s.connected && r.reconnecting == s.reconnecting
    ensures r.error.Some? && r.error.value == "Location error: " + message
  {
    s.(error := Some("Location error: " + message))
  }

  /** JavaScript truthiness of an optional string: present and non-empty. */
  predicate Truthy(o: Option<string>) {
    o.Some? && o.value != ""
  }

  /** `getConnectionChipProps`: reconnecting wins over connected, which wins over the error text. */
  function ChipProps(s: ConnectionStatus): (c: Chip)
    ensures c.color == Warning <==> s.reconnecting
    ensures c.color == Success <==> !s.reconnecting && s.connected
    ensures s.reconnecting ==> c.text == "Reconnecting..."
    ensures !s.reconnecting && s.connected ==> c.text == "Connected"
    ensures !s.reconnecting && !s.connected && Truthy(s.error) ==> c.text == s.error.value
    ensures !s.reconnecting && !s.connected && !Truthy(s.error) ==> c.text == "Disconnected"
  {
    if s.reconnecting then Chip("Reconnecting...", Warning)
    else if s.connected then Chip("Connected", Success)
    else Chip(if Truthy(s.error) then s.error.value else "Disconnected", ErrorColor)
  }

  /** The chip each lifecycle event leads to, independently of what was shown before. */
  lemma ChipAfterLifecycle(e: Lifecycle)
    ensures e.Connect? ==> ChipProps(OnLifecycle(e)) == Chip("Connected", Success)
    ensures e.Disconnect? ==> ChipProps(OnLifecycle(e)) == Chip("Disconnected", ErrorColor)
    ensures e.Reconnecting? ==> ChipProps(OnLifecycle(e)) == Chip("Reconnecting...", Warning)
    ensures e.ConnectError? && e.message != "" ==> ChipProps(OnLifecycle(e)) == Chip(e.message, ErrorColor)
    ensures e.ConnectError? && e.message == "" ==> ChipProps(OnLifecycle(e)) == Chip("Disconnected", ErrorColor)
  {
  }

  /** A location error is invisible on the chip while connected or reconnecting, and shown otherwise. */
  lemma GeolocationErrorOnChip(s: ConnectionStatus, message: string)
    ensures s.reconnecting || s.connected ==> ChipProps(OnGeolocationError(s, message)) == ChipProps(s)
    ensures !s.reconnecting && !s.connected ==>
              ChipProps(OnGeolocationError(s, message)) == Chip("Location error: " + message, ErrorColor)
  {
    assert ("Location error: " + message)[0] == 'L';
  }
}

=== FILE: emergency_button.dfy ===
/**
 The emergency button (src/components/tourist/emergency/index.tsx) as a reducer over discrete inputs.
 A click starts a 3-2-1 countdown driven by a one-second interval; the tick that finds 1 stops its
 interval and POSTs the alert; the HTTP outcome sets the status and schedules a timeout that reverts
 the button. Interval firings, timeout firings and HTTP outcomes are inputs. The state counts the
 live intervals, scheduled timeouts and requests in flight, so that an input with nothing behind it
 (a tick with no interval running) changes nothing.
 */
module EmergencyButton {
  import opened Common
  import AlertApi

  /** The `status` state: "idle" | "success" | "error". */
  datatype AlertStatus = Idle | Sent | Failed

  /** The component's props, with the user details as the alert payload carries them. */
  datatype Props = Props(contacts: seq<string>, userInfo: AlertApi.UserInfo)

  datatype Button = Button(
    activated: bool,
    loading: bool,
    status: AlertStatus,
    countdown: Option<int>,
    liveIntervals: nat,
    inFlight: nat,
    pendingReverts: nat,
    requests: seq<AlertApi.Body>)

  datatype Input =
    | Click                   // the round button
    | Tick(now: string)       // one firing of a countdown interval; `now` is the clock as an ISO string
    | HttpResult(ok: bool)    // the POST came back with a 2xx (`ok`) or not, or threw
    | RevertTimer             // the 10 s (after success) or 5 s (after error) timeout fires; both do the same
    | TryAgain                // the "Try Again" button, shown only in the error state

  const Initial := Button(false, false, Idle, None, 0, 0, 0, [])

  const CountdownStart := 3

  const AlertPrefix := "EMERGENCY ALERT: "
  const AlertSuffix := ". Immediate assistance required."

  ghost predicate Valid(b: Button) {
    && (b.countdown.Some? ==> 1 <= b.countdown.value <= CountdownStart && b.liveIntervals > 0)
    && (b.loading ==> b.inFlight > 0)
  }

  /** The button's `disabled` attribute. */
  predicate Disabled(b: Button) {
    b.activated && b.status != Failed
  }

  /** JavaScript's rendering of an optional string inside a template literal. */
  function Show(o: Option<string>): string {
    if o.Some? then o.value else "undefined"
  }

  /** The body `sendEmergencyAlert` POSTs. A missing location is dropped by JSON serialisation. */
  function Payload(p: Props, now: string): (body: AlertApi.Body)
    ensures body.severity == Some("HIGH")
    ensures body.location == p.userInfo.location
    ensures body.userInfo == Some(p.userInfo) && body.emergencyContacts == Some(p.contacts)
    ensures body.timestamp == Some(now)
    ensures body.message.Some? && |body.message.value| > 0
    ensures var m, name := body.message.value, Show(p.userInfo.name);
      && |m| >= |AlertPrefix| + |name| && m[..|AlertPrefix|] == AlertPrefix && m[|AlertPrefix|..|AlertPrefix| + |name|] == name
    ensures var m, tail := body.message.value, Show(p.userInfo.location) + AlertSuffix;
      |m| >= |tail| && m[|m| - |tail|..] == tail
  {
    var message := AlertPrefix + Show(p.userInfo.name) + " has activated the emergency button at "
                   + Show(p.userInfo.location) + AlertSuffix;
    assert message == AlertPrefix + (Show(p.userInfo.name) + " has activated the emergency button at "
                   + Show(p.userInfo.location) + AlertSuffix);
    AlertApi.Body(Some(now), Some(p.userInfo), Some(p.contacts), p.userInfo.location, Some("HIGH"), Some(message))
  }

  /** The countdown updater: 1 becomes null and fires the alert; another truthy value is decremented;
      null (and the falsy 0) become null. */
  function TickCountdown(c: Option<int>): (r: (Option<int>, bool))
    ensures r.1 <==> c == Some(1)
    ensures c.Some? && c.value > 1 ==> r.0 == Some(c.value - 1)
    ensures c.None? || c == Some(0) || c == Some(1) ==> r.0 == None
  {
    if c == Some(1) then (None, true)
    else if c.Some? && c.value != 0 then (Some(c.value - 1), false)
    else (None, false)
  }

  /** `handleEmergencyActivation`: start the countdown at 3 with a new interval. */
  function Activate(b: Button): (r: Button)
    ensures r.countdown == Some(CountdownStart) && r.liveIntervals == b.liveIntervals + 1
    ensures r == b.(countdown := r.countdown, liveIntervals := r.liveIntervals)
  {
    b.(countdown := Some(CountdownStart), liveIntervals := b.liveIntervals + 1)
  }

  /** The button's `onClick`: ignored while disabled; otherwise start the countdown, or cancel a running one. */
  function OnClick(b: Button): (r: Button)
    ensures Disabled(b) ==> r == b
    ensures !Disabled(b) && b.countdown.None? ==> r == Activate(b)
    ensures !Disabled(b) && b.countdown.Some? ==> r == b.(countdown := None)
  {
    if Disabled(b) then b
    else if b.countdown.None? then Activate(b)
    else b.(countdown := None)
  }

  /** `sendEmergencyAlert` up to the network wait: loading, activated, one more request out. */
  function Send(b: Button, p: Props, now: string): (r: Button)
    ensures r.loading && r.activated && r.inFlight == b.inFlight + 1
    ensures r.requests == b.requests + [Payload(p, now)]
    ensures r == b.(loading := true, activated := true, inFlight := r.inFlight, requests := r.requests)
  {
    b.(loading := true, activated := true, inFlight := b.inFlight + 1, requests := b.requests + [Payload(p, now)])
  }

  /** One interval firing. The firing that reaches 1 clears its own interval and sends. */
  function OnTick(b: Button, p: Props, now: string): (r: Button)
    ensures b.liveIntervals == 0 ==> r == b
    ensures |r.requests| == |b.requests| + (if b.liveIntervals > 0 && b.countdown == Some(1) then 1 else 0)
    ensures b.liveIntervals > 0 ==> r.countdown == TickCountdown(b.countdown).0
    // the firing tick stops its own interval and sends exactly this payload; the rest of the button is kept
    ensures b.liveIntervals > 0 && b.countdown == Some(1) ==>
              && r.requests == b.requests + [Payload(p, now)]
              && r.loading && r.activated && r.inFlight == b.inFlight + 1 && r.liveIntervals == b.liveIntervals - 1
              && r == b.(countdown := None, liveIntervals := r.liveIntervals, loading := true, activated := true,
                         inFlight := r.inFlight, requests := r.requests)
    // any other tick only moves the countdown
    ensures b.liveIntervals > 0 && b.countdown != Some(1) ==> r == b.(countdown := TickCountdown(b.countdown).0)
  {
    if b.liveIntervals == 0 then b
    else
      var (next, fire) := TickCountdown(b.countdown);
      if fire then Send(b.(countdown := next, liveIntervals := b.liveIntervals - 1), p, now)
      else b.(countdown := next)
  }

  /** The end of `sendEmergencyAlert`: "success" iff the response was ok, loading off, a revert timeout scheduled. */
  function OnHttpResult(b: Button, ok: bool): (r: Button)
    ensures b.inFlight == 0 ==> r == b
    ensures b.inFlight > 0 ==> (r.status == Sent <==> ok) && (r.status == Failed <==> !ok)
    ensures b.inFlight > 0 ==> !r.loading && r.activated == b.activated && r.pendingReverts == b.pendingReverts + 1
    ensures r.countdown == b.countdown && r.requests == b.requests
    ensures b.inFlight > 0 ==>
              r == b.(status := r.status, loading := false, inFlight := b.inFlight - 1, pendingReverts := b.pendingReverts + 1)
  {
    if b.inFlight == 0 then b
    else b.(status := if ok then Sent else Failed, loading := false, inFlight := b.inFlight - 1,
            pendingReverts := b.pendingReverts + 1)
  }

  /** A revert timeout: not activated, status idle; the countdown is left alone. */
  function OnRevertTimer(b: Button): (r: Button)
    ensures b.pendingReverts == 0 ==> r == b
    ensures b.pendingReverts > 0 ==> !r.activated && r.status == Idle && !Disabled(r)
    ensures r.countdown == b.countdown && r.requests == b.requests
    ensures b.pendingReverts > 0 ==> r == b.(activated := false, status := Idle, pendingReverts := b.pendingReverts - 1)
  {
    if b.pendingReverts == 0 then b
    else b.(activated := false, status := Idle, pendingReverts := b.pendingReverts - 1)
  }

  /** `resetButton`, reachable only from the error state's "Try Again" button. */
  function OnTryAgain(b: Button): (r: Button)
    ensures b.status != Failed ==> r == b
    ensures b.status == Failed ==> !r.activated && r.status == Idle && r.countdown.None? && !Disabled(r)
    ensures r.requests == b.requests
    ensures r == b.(activated := r.activated, status := r.status, countdown := r.countdown)
  {
    if b.status != Failed then b
    else b.(activated := false, status := Idle, countdown := None)
  }

  function Step(b: Button, p: Props, i: Input): Button {
    match i
    case Click => OnClick(b)
    case Tick(now) => OnTick(b, p, now)
    case HttpResult(ok) => OnHttpResult(b, ok)
    case RevertTimer => OnRevertTimer(b)
    case TryAgain => OnTryAgain(b)
  }

  function Run(b: Button, p: Props, inputs: seq<Input>): Button
    decreases |inputs|
  {
    if |inputs| == 0 then b else Run(Step(b, p, inputs[0]), p, inputs[1..])
  }

  // ---------------------------------------------------------------------------------------------
  // Properties

  /** The button as mounted: valid, enabled, idle, with no countdown and nothing sent. */
  lemma InitialValid()
    ensures Valid(Initial) && !Disabled(Initial)
    ensures Initial.status == Idle && Initial.countdown.None? && Initial.requests == []
  {
  }

  lemma StepPreservesValid(b: Button, p: Props, i: Input)
    requires Valid(b)
    ensures Valid(Step(b, p, i))
  {
  }

  lemma {:induction false} RunPreservesValid(b: Button, p: Props, inputs: seq<Input>)
    requires Valid(b)
    ensures Valid(Run(b, p, inputs))
    decreases |inputs|
  {
    if |inputs| > 0 {
      StepPreservesValid(b, p, inputs[0]);
      RunPreservesValid(Step(b, p, inputs[0]), p, inputs[1..]);
    }
  }

  /** A click on an idle, enabled button followed by three ticks sends exactly one alert, built at the third tick. */
  lemma ThreeTicksSendOnce(b: Button, p: Props, t1: string, t2: string, t3: string)
    requires !Disabled(b) && b.countdown.None?
    ensures var r := Run(b, p, [Click, Tick(t1), Tick(t2), Tick(t3)]);
      && r.requests == b.requests + [Payload(p, t3)]
      && r.countdown.None? && r.loading && r.activated
  {
    var b1 := OnClick(b);
    var b2 := OnTick(b1, p, t1);
    var b3 := OnTick(b2, p, t2);
    var b4 := OnTick(b3, p, t3);
    assert b2.countdown == Some(2) && b3.countdown == Some(1);
    var xs := [Click, Tick(t1), Tick(t2), Tick(t3)];
    assert Run(b3, p, xs[3..]) == b4 by {
      assert xs[3..][1..] == [];
    }
    assert Run(b2, p, xs[2..]) == Run(b3, p, xs[3..]) by {
      assert xs[2..][1..] == xs[3..];
    }
    assert Run(b1, p, xs[1..]) == Run(b2, p, xs[2..]) by {
      assert xs[1..][1..] == xs[2..];
    }
  }

  /** With no countdown running, no number of ticks sends anything or changes the state. */
  lemma {:induction false} TicksWithoutCountdown(b: Button, p: Props, times: seq<string>)
    requires b.countdown.None?
    ensures Run(b, p, Ticks(times)) == b
    decreases |times|
  {
    if |times| > 0 {
      assert Ticks(times)[0] == Tick(times[0]);
      assert Ticks(times)[1..] == Ticks(times[1..]);
      TicksWithoutCountdown(b, p, times[1..]);
    }
  }

  /** One tick per clock reading. */
  function Ticks(times: seq<string>): (r: seq<Input>)
    ensures |r| == |times|
    ensures forall i :: 0 <= i < |r| ==> r[i] == Tick(times[i])
  {
    seq(|times|, i requires 0 <= i < |times| => Tick(times[i]))
  }

  /** A click during the countdown cancels it, and none of the ticks that follow sends. */
  lemma CancelStopsSend(b: Button, p: Props, times: seq<string>)
    requires !Disabled(b) && b.countdown.Some?
    ensures Run(OnClick(b), p, Ticks(times)) == OnClick(b)
    ensures OnClick(b).requests == b.requests
  {
    TicksWithoutCountdown(OnClick(b), p, times);
  }

  /** The outcome of the request the third tick sent: "success" iff ok, loading off, still activated. */
  lemma OutcomeAfterSend(b: Button, p: Props, now: string, ok: bool)
    ensures var r := OnHttpResult(Send(b, p, now), ok);
      && (r.status == Sent <==> ok) && (r.status == Failed <==> !ok)
      && !r.loading && r.activated
      && (Disabled(r) <==> ok)
  {
  }

  /** Every alert the button sends passes the handler's validation, so the handler mails each contact. */
  lemma PayloadAccepted(p: Props, now: string, outcomes: seq<bool>)
    requires |outcomes| == |p.contacts|
    ensures AlertApi.HasRequiredFields(Payload(p, now))
    ensures AlertApi.HandleCorrected(AlertApi.Request("POST", Some(Payload(p, now))), outcomes).body.Report?
  {
  }
}

=== FILE: keyed_lists.dfy ===
/**
 Lists of records identified by a key. Every list in the front end (the live peer list, the
 authority markers and geofences, the safety packages) is edited with the same two idioms:
 `xs.filter(x => key(x) !== k)` to drop an id and `xs.find(x => key(x) === k)` to look one up.
 They are defined once here and instantiated with a named key function at each use.
 */
module KeyedLists {
  import opened Common

  /** `xs.filter(x => key(x) !== k)`: the elements whose key differs from `k`, in their original order. */
  function RemoveKey<T(==), K(==)>(xs: seq<T>, key: T -> K, k: K): (r: seq<T>)
    ensures |r| <= |xs|
    ensures forall i :: 0 <= i < |r| ==> key(r[i]) != k
    ensures forall i :: 0 <= i < |r| ==> r[i] in xs
    ensures forall i :: 0 <= i < |xs| && key(xs[i]) != k ==> xs[i] in r
  {
    if |xs| == 0 then []
    else if key(xs[0]) == k then RemoveKey(xs[1..], key, k)
    else [xs[0]] + RemoveKey(xs[1..], key, k)
  }

  /** `xs.find(x => key(x) === k)`: the first element whose key is `k`, if any. */
  function FindKey<T, K(==)>(xs: seq<T>, key: T -> K, k: K): (r: Option<T>)
    ensures r.None? <==> forall i :: 0 <= i < |xs| ==> key(xs[i]) != k
    ensures r.Some? ==> exists i :: 0 <= i < |xs| && xs[i] == r.value && key(xs[i]) == k
                                   && forall j :: 0 <= j < i ==> key(xs[j]) != k
  {
    if |xs| == 0 then None
    else if key(xs[0]) == k then Some(xs[0])
    else
      var rest := FindKey(xs[1..], key, k);
      if rest.Some? then
        ghost var i :| 0 <= i < |xs[1..]| && xs[1..][i] == rest.value && key(xs[1..][i]) == k
                       && forall j :: 0 <= j < i ==> key(xs[1..][j]) != k;
        assert xs[i + 1] == rest.value;
        rest
      else rest
  }

  /** No two elements of `xs` share a key. */
  ghost predicate DistinctKeys<T, K>(xs: seq<T>, key: T -> K) {
    forall i, j :: 0 <= i < j < |xs| ==> key(xs[i]) != key(xs[j])
  }

  /** `a` is `b` with some elements left out and the rest kept in order. */
  predicate IsSubsequence<T(==)>(a: seq<T>, b: seq<T>)
    decreases |b|
  {
    if |a| == 0 then true
    else if |b| == 0 then false
    else if a[0] == b[0] then IsSubsequence(a[1..], b[1..])
    else IsSubsequence(a, b[1..])
  }

  /** Dropping an id that no element carries leaves the list as it was. */
  lemma {:induction false} RemoveAbsentKey<T, K>(xs: seq<T>, key: T -> K, k: K)
    requires forall i :: 0 <= i < |xs| ==> key(xs[i]) != k
    ensures RemoveKey(xs, key, k) == xs
  {
    if |xs| > 0 {
      RemoveAbsentKey(xs[1..], key, k);
    }
  }

  /** Dropping the same id twice is dropping it once. */
  lemma RemoveKeyIdempotent<T, K>(xs: seq<T>, key: T -> K, k: K)
    ensures RemoveKey(RemoveKey(xs, key, k), key, k) == RemoveKey(xs, key, k)
  {
    RemoveAbsentKey(RemoveKey(xs, key, k), key, k);
  }

  /** Every element whose key differs from `k` survives with its multiplicity; the others vanish. */
  lemma {:induction false} RemoveKeyCounts<T, K>(xs: seq<T>, key: T -> K, k: K)
    ensures forall x :: multiset(RemoveKey(xs, key, k))[x] == if key(x) != k then multiset(xs)[x] else 0
  {
    if |xs| > 0 {
      RemoveKeyCounts(xs[1..], key, k);
      assert xs == [xs[0]] + xs[1..];
    }
  }

  /** The survivors keep their relative order: the result is a subsequence of the input. */
  lemma {:induction false} RemoveKeyIsSubsequence<T, K>(xs: seq<T>, key: T -> K, k: K)
    ensures IsSubsequence(RemoveKey(xs, key, k), xs)
  {
    if |xs| > 0 {
      RemoveKeyIsSubsequence(xs[1..], key, k);
      var r := RemoveKey(xs[1..], key, k);
      if key(xs[0]) == k {
        SubsequenceOfTail(r, xs);
      } else {
        assert ([xs[0]] + r)[1..] == r;
      }
    }
  }

  /** A subsequence of the tail is a subsequence of the whole. */
  lemma {:induction false} SubsequenceOfTail<T>(a: seq<T>, b: seq<T>)
    requires |b| > 0 && IsSubsequence(a, b[1..])
    ensures IsSubsequence(a, b)
    decreases |a| + |b|
  {
    if |a| > 0 && a[0] == b[0] {
      if |b| > 1 {
        if a[0] == b[1] {
          SubsequenceOfTail(a[1..], b[1..]);
        } else {
          SubsequenceDropHead(a, b[1..]);
        }
      }
    }
  }

  /** If `a` is a subsequence of `b`, so is `a` without its first element. */
  lemma {:induction false} SubsequenceDropHead<T>(a: seq<T>, b: seq<T>)
    requires |a| > 0 && IsSubsequence(a, b)
    ensures IsSubsequence(a[1..], b)
    decreases |a| + |b|
  {
    assert |b| > 0;
    if a[0] == b[0] {
      SubsequenceOfTail(a[1..], b);
    } else {
      SubsequenceDropHead(a, b[1..]);
      SubsequenceOfTail(a[1..], b);
    }
  }

  /** Filtering distributes over concatenation, so the order of the survivors is that of the input. */
  lemma {:induction false} RemoveKeyAppend<T, K>(a: seq<T>, b: seq<T>, key: T -> K, k: K)
    ensures RemoveKey(a + b, key, k) == RemoveKey(a, key, k) + RemoveKey(b, key, k)
  {
    if |a| == 0 {
      assert a + b == b;
    } else {
      assert (a + b)[0] == a[0];
      assert (a + b)[1..] == a[1..] + b;
      RemoveKeyAppend(a[1..], b, key, k);
    }
  }

  /** Filtering a list whose keys are distinct keeps them distinct. */
  lemma {:induction false} RemoveKeyDistinct<T, K>(xs: seq<T>, key: T -> K, k: K)
    requires DistinctKeys(xs, key)
    ensures DistinctKeys(RemoveKey(xs, key, k), key)
  {
    if |xs| > 0 {
      assert DistinctKeys(xs[1..], key) by {
        forall i, j | 0 <= i < j < |xs[1..]|
          ensures key(xs[1..][i]) != key(xs[1..][j])
        {
          assert xs[1..][i] == xs[i + 1] && xs[1..][j] == xs[j + 1];
        }
      }
      RemoveKeyDistinct(xs[1..], key, k);
      var r := RemoveKey(xs[1..], key, k);
      if key(xs[0]) != k {
        forall j | 0 <= j < |r|
          ensures key(xs[0]) != key(r[j])
        {
          assert r[j] in xs[1..];
          var m :| 0 <= m < |xs[1..]| && xs[1..][m] == r[j];
          assert xs[m + 1] == r[j];
        }
        assert DistinctKeys([xs[0]] + r, key) by {
          forall i, j | 0 <= i < j < |[xs[0]] + r|
            ensures key(([xs[0]] + r)[i]) != key(([xs[0]] + r)[j])
          {
            if i == 0 {
              assert ([xs[0]] + r)[j] == r[j - 1];
            } else {
              assert ([xs[0]] + r)[i] == r[i - 1];
              assert ([xs[0]] + r)[j] == r[j - 1];
            }
          }
        }
      }
    }
  }
}

=== FILE: live_tracking.dfy ===
/**
 The live location map (src/components/tourist/home/components/SessionsChart.tsx) as a pure
 reducer. The component keeps, for one browser session:
   - `connectedUsers`: the list of the latest sample received from each other participant;
   - a keyed marker table (`userMarkersRef`), here reduced to id, last update time and owner flag;
   - the connection status record of the Connection module;
   - the geolocation watch handle, the tracking flags and the last own sample.
 Socket events, geolocation callbacks and button clicks are inputs (`Event`); what the component
 sends out (socket emits, `clearWatch`, `alert`) is appended to an effect log. The two optional prop
 callbacks, `onLocationUpdate` and `onConnectionStatusChange`, are not part of the log: the one
 place that mounts the component passes neither.
 */
module LiveTracking {
  import opened Common
  import opened KeyedLists
  import opened Connection

  /** `LocationData`: one position sample of one participant. */
  datatype LocationData = LocationData(
    userId: string,
    latitude: real,
    longitude: real,
    accuracy: real,
    heading: Option<real>,
    speed: Option<real>,
    timestamp: int,
    batteryLevel: Option<int>)

  /** The participant a sample belongs to: the key of the peer list. */
  function PeerId(d: LocationData): string {
    d.userId
  }

  /** A JavaScript number as the position watch reports `heading` and `speed`: a value, or NaN
      (the heading of a device that is not moving). */
  datatype JsNumber = Num(value: real) | NaN

  /** One reading from the platform's position watch; `heading` and `speed` are null when unknown. */
  datatype Fix = Fix(latitude: real, longitude: real, accuracy: real, heading: Option<JsNumber>, speed: Option<JsNumber>)

  /** A map marker, with the rendering handle abstracted away. */
  datatype UserMarker = UserMarker(userId: string, lastUpdate: int, isCurrentUser: bool)

  /** `socketRef.current`: no socket, or one whose transport is (not yet) connected. */
  datatype Link = NoSocket | Open(connected: bool)

  /** What the component does to the outside world. */
  datatype Effect =
    | EmitLocation(data: LocationData)
    | ClearWatch(watchId: int)
    | Alert(message: string)

  const GeolocationUnsupported := "Geolocation is not supported by this browser."

  datatype Tracker = Tracker(
    selfId: string,
    peers: seq<LocationData>,
    markers: map<string, UserMarker>,
    status: ConnectionStatus,
    link: Link,
    mapReady: bool,
    watch: Option<int>,
    trackingEnabled: bool,
    settingsEnabled: bool,
    currentLocation: Option<LocationData>,
    effects: seq<Effect>)

  /** The inputs the component reacts to. */
  datatype Event =
    | SocketLifecycle(e: Lifecycle)
    | LocationUpdate(data: LocationData)
    | UserDisconnected(id: string)
    | ConnectedUsers(users: seq<LocationData>)
    | PositionFix(fix: Fix, now: int, battery: Option<int>)
    | PositionError(message: string)
    | TrackingButton(geolocationSupported: bool, watchId: int)
    | ConnectionButton
    | Unmount

  /** A freshly mounted component. `selfId` is the random session id; `mapReady` says whether the map object exists. */
  function Init(selfId: string, mapReady: bool): (s: Tracker)
    ensures Valid(s)
    ensures s.peers == [] && s.markers == map[] && s.link == NoSocket && s.watch == None
    ensures ChipProps(s.status) == Chip("Disconnected", ErrorColor)
  {
    Tracker(selfId, [], map[], Connection.Initial, NoSocket, mapReady, None, false, false, None, [])
  }

  // ---------------------------------------------------------------------------------------------
  // Invariant

  /** Marker table well-formedness: each entry is stored under its own id, and only the local one is flagged. */
  ghost predicate MarkersValid(m: map<string, UserMarker>, selfId: string) {
    forall k :: k in m ==> m[k].userId == k && (m[k].isCurrentUser <==> k == selfId)
  }

  ghost predicate Valid(s: Tracker) {
    && (forall i :: 0 <= i < |s.peers| ==> s.peers[i].userId != s.selfId)
    && MarkersValid(s.markers, s.selfId)
    && !(s.status.connected && s.status.reconnecting)
    && (s.mapReady ==> forall i :: 0 <= i < |s.peers| ==> s.peers[i].userId in s.markers)
    && (forall i :: 0 <= i < |s.effects| && s.effects[i].EmitLocation? ==> s.effects[i].data.userId == s.selfId)
    && (s.settingsEnabled <==> s.watch.Some?)
    && (s.watch.Some? ==> s.trackingEnabled)
  }

  // ---------------------------------------------------------------------------------------------
  // Marker table

  /** `updateUserMarker` / `updateCurrentUserMarker` once the map exists: an existing marker only gets a new
      `lastUpdate`; a missing one is created with the given owner flag. */
  function TouchMarker(m: map<string, UserMarker>, id: string, timestamp: int, isCurrentUser: bool)
    : (r: map<string, UserMarker>)
    ensures r.Keys == m.Keys + {id}
    ensures id in m ==> r[id] == m[id].(lastUpdate := timestamp)
    ensures id !in m ==> r[id] == UserMarker(id, timestamp, isCurrentUser)
    ensures forall k :: k in m && k != id ==> r[k] == m[k]
  {
    if id in m then m[id := m[id].(lastUpdate := timestamp)]
    else m[id := UserMarker(id, timestamp, isCurrentUser)]
  }

  /** The ids of a roster other than the local user's. */
  function RosterIds(users: seq<LocationData>, selfId: string): (ids: set<string>)
    ensures ids == set i | 0 <= i < |users| && users[i].userId != selfId :: users[i].userId
    decreases |users|
  {
    if |users| == 0 then {}
    else
      var prefix, last := users[..|users| - 1], users[|users| - 1];
      var inner := RosterIds(prefix, selfId);
      assert forall i :: 0 <= i < |prefix| ==> prefix[i] == users[i];
      inner + if last.userId != selfId then {last.userId} else {}
  }

  /** The `users.forEach` of the roster handler: touch the marker of every roster entry that is not the local user. */
  function TouchRoster(m: map<string, UserMarker>, users: seq<LocationData>, selfId: string)
    : (r: map<string, UserMarker>)
    ensures m.Keys <= r.Keys
    ensures forall i :: 0 <= i < |users| && users[i].userId != selfId ==> users[i].userId in r
    ensures forall k :: k in r && k !in m ==> k != selfId
    ensures forall k :: k in m ==> r[k].userId == m[k].userId && r[k].isCurrentUser == m[k].isCurrentUser
    ensures forall k :: k in r && k !in m ==> r[k].userId == k && !r[k].isCurrentUser
    ensures MarkersValid(m, selfId) ==> MarkersValid(r, selfId)
    // a marker nobody in the roster names, and the local user's own marker, are left as they were
    ensures forall k :: k in m && (forall i :: 0 <= i < |users| ==> users[i].userId != k) ==> r[k] == m[k]
    ensures selfId in m ==> r[selfId] == m[selfId]
    // every other marker named in the roster carries the time of the last roster entry for it
    ensures forall i :: 0 <= i < |users| && users[i].userId != selfId
                        && (forall j :: i < j < |users| ==> users[j].userId != users[i].userId) ==>
              r[users[i].userId].lastUpdate == users[i].timestamp
    decreases |users|
  {
    if |users| == 0 then m
    else
      var prefix, last := users[..|users| - 1], users[|users| - 1];
      var inner := TouchRoster(m, prefix, selfId);
      assert forall i :: 0 <= i < |prefix| ==> prefix[i] == users[i];
      if last.userId != selfId then TouchMarker(inner, last.userId, last.timestamp, false) else inner
  }

  /** The roster handler creates markers for the roster's other participants and for nobody else. */
  lemma {:induction false} TouchRosterKeys(m: map<string, UserMarker>, users: seq<LocationData>, selfId: string)
    ensures TouchRoster(m, users, selfId).Keys == m.Keys + RosterIds(users, selfId)
    decreases |users|
  {
    if |users| > 0 {
      TouchRosterKeys(m, users[..|users| - 1], selfId);
    }
  }

  /** `removeUserMarker`: the entry for `id` disappears, if there was one. */
  function RemoveMarker(m: map<string, UserMarker>, id: string): (r: map<string, UserMarker>)
    ensures r.Keys == m.Keys - {id}
    ensures forall k :: k in r ==> r[k] == m[k]
    ensures id !in m ==> r == m
  {
    m - {id}
  }

  // ---------------------------------------------------------------------------------------------
  // Inbound socket events

  /** The peer list after a sample from another participant: the old entry for that id goes, the sample is appended. */
  function UpsertPeer(peers: seq<LocationData>, d: LocationData): (r: seq<LocationData>)
    ensures |r| > 0 && r[|r| - 1] == d
    ensures forall i :: 0 <= i < |r| ==> (r[i].userId == d.userId <==> i == |r| - 1)
    ensures forall i :: 0 <= i < |peers| && peers[i].userId != d.userId ==> peers[i] in r
    ensures forall i :: 0 <= i < |r| - 1 ==> r[i] in peers
  {
    RemoveKey(peers, PeerId, d.userId) + [d]
  }

  /** The `locationUpdate` handler. */
  function OnLocationUpdate(s: Tracker, d: LocationData): (r: Tracker)
    ensures d.userId == s.selfId ==> r == s
    ensures d.userId != s.selfId ==> r.peers == UpsertPeer(s.peers, d)
    ensures d.userId != s.selfId && s.mapReady ==> r.markers == TouchMarker(s.markers, d.userId, d.timestamp, false)
    ensures !s.mapReady ==> r.markers == s.markers
    ensures r == s.(peers := r.peers, markers := r.markers)
  {
    if d.userId == s.selfId then s
    else
      s.(peers := UpsertPeer(s.peers, d),
         markers := if s.mapReady then TouchMarker(s.markers, d.userId, d.timestamp, false) else s.markers)
  }

  /** The `userDisconnected` handler. */
  function OnUserDisconnected(s: Tracker, id: string): (r: Tracker)
    ensures forall i :: 0 <= i < |r.peers| ==> r.peers[i].userId != id
    ensures id !in r.markers
    ensures r.markers == RemoveMarker(s.markers, id)
    ensures r.markers.Keys == s.markers.Keys - {id} && forall k :: k in r.markers ==> r.markers[k] == s.markers[k]
    ensures r.peers == RemoveKey(s.peers, PeerId, id)
    ensures r == s.(peers := r.peers, markers := r.markers)
  {
    s.(peers := RemoveKey(s.peers, PeerId, id), markers := RemoveMarker(s.markers, id))
  }

  /** The `connectedUsers` handler: the roster minus the local user replaces the list; markers are touched. */
  function OnConnectedUsers(s: Tracker, users: seq<LocationData>): (r: Tracker)
    ensures forall i :: 0 <= i < |r.peers| ==> r.peers[i].userId != s.selfId
    ensures r.markers == (if s.mapReady then TouchRoster(s.markers, users, s.selfId) else s.markers)
    ensures r == s.(peers := r.peers, markers := r.markers)
  {
    s.(peers := RemoveKey(users, PeerId, s.selfId),
       markers := if s.mapReady then TouchRoster(s.markers, users, s.selfId) else s.markers)
  }

  /** A lifecycle event installs a fresh status record; the socket's own `connected` flag follows it. */
  function OnSocketLifecycle(s: Tracker, e: Lifecycle): (r: Tracker)
    ensures r.status == OnLifecycle(e)
    ensures r.link.Open? <==> s.link.Open?
    ensures r.link.Open? ==> (r.link.connected <==> e.Connect?)
    ensures r == s.(status := r.status, link := r.link)
  {
    s.(status := OnLifecycle(e), link := if s.link.Open? then Open(e.Connect?) else NoSocket)
  }

  // ---------------------------------------------------------------------------------------------
  // Geolocation and tracking

  /** `value || undefined` for an optional number: null, 0 and NaN, the falsy numbers, all become absent. */
  function OrUndefined(o: Option<JsNumber>): (r: Option<real>)
    ensures r.Some? <==> o.Some? && o.value.Num? && o.value.value != 0.0
    ensures r.Some? ==> r.value == o.value.value
  {
    if o.Some? && o.value.Num? && o.value.value != 0.0 then Some(o.value.value) else None
  }

  /** The sample `successCallback` builds from a fix, the clock and the battery reading. */
  function MakeSample(selfId: string, fix: Fix, now: int, battery: Option<int>): (d: LocationData)
    ensures d.userId == selfId && d.timestamp == now && d.batteryLevel == battery
    ensures d.latitude == fix.latitude && d.longitude == fix.longitude && d.accuracy == fix.accuracy
    ensures d.heading == OrUndefined(fix.heading) && d.speed == OrUndefined(fix.speed)
  {
    LocationData(selfId, fix.latitude, fix.longitude, fix.accuracy, OrUndefined(fix.heading), OrUndefined(fix.speed), now, battery)
  }

  /** `successCallback`: remember the sample, emit it only over a connected socket, and touch the own marker. */
  function OnPositionFix(s: Tracker, fix: Fix, now: int, battery: Option<int>): (r: Tracker)
    ensures r.currentLocation == Some(MakeSample(s.selfId, fix, now, battery))
    ensures s.link == Open(true) ==> r.effects == s.effects + [EmitLocation(MakeSample(s.selfId, fix, now, battery))]
    ensures s.link != Open(true) ==> r.effects == s.effects
    ensures s.mapReady ==> r.markers == TouchMarker(s.markers, s.selfId, now, true)
    ensures !s.mapReady ==> r.markers == s.markers
    ensures r == s.(currentLocation := r.currentLocation, effects := r.effects, markers := r.markers)
  {
    var d := MakeSample(s.selfId, fix, now, battery);
    s.(currentLocation := Some(d),
       effects := s.effects + (if s.link == Open(true) then [EmitLocation(d)] else []),
       markers := if s.mapReady then TouchMarker(s.markers, s.selfId, d.timestamp, true) else s.markers)
  }

  /** `errorCallback`: only the status's error text changes. */
  function OnPositionError(s: Tracker, message: string): (r: Tracker)
    ensures r.status.connected == s.status.connected && r.status.reconnecting == s.status.reconnecting
    ensures r.status.error == Some("Location error: " + message)
    ensures r == s.(status := r.status)
  {
    s.(status := OnGeolocationError(s.status, message))
  }

  /** `connectSocket`: a new socket, not yet connected, replaces whatever `socketRef` held. */
  function ConnectSocket(s: Tracker): (r: Tracker)
    ensures r.link == Open(false)
    ensures r == s.(link := r.link)
  {
    s.(link := Open(false))
  }

  /** `disconnectSocket`: drop the socket if there is one. */
  function DisconnectSocket(s: Tracker): (r: Tracker)
    ensures r.link == NoSocket
    ensures r == s.(link := r.link)
  {
    s.(link := NoSocket)
  }

  /** `startTracking`: without geolocation only an alert is raised; otherwise a socket is opened if none exists
      and the watch is installed. */
  function StartTracking(s: Tracker, geolocationSupported: bool, watchId: int): (r: Tracker)
    ensures !geolocationSupported ==> r == s.(effects := s.effects + [Alert(GeolocationUnsupported)])
    ensures geolocationSupported ==> r.watch == Some(watchId) && r.settingsEnabled && r.link.Open?
    ensures geolocationSupported && s.link.Open? ==> r.link == s.link
    ensures geolocationSupported && s.link.NoSocket? ==> r.link == Open(false)
    ensures geolocationSupported ==> r.effects == s.effects
    ensures r == s.(effects := r.effects, link := r.link, watch := r.watch, settingsEnabled := r.settingsEnabled)
  {
    if !geolocationSupported then s.(effects := s.effects + [Alert(GeolocationUnsupported)])
    else
      var s1 := if s.link.NoSocket? then ConnectSocket(s) else s;
      s1.(watch := Some(watchId), settingsEnabled := true)
  }

  /** `stopTracking`: clear the watch only when one is set; tracking settings are disabled either way. */
  function StopTracking(s: Tracker): (r: Tracker)
    ensures r.watch == None && !r.settingsEnabled
    ensures s.watch.Some? ==> r.effects == s.effects + [ClearWatch(s.watch.value)]
    ensures s.watch.None? ==> r.effects == s.effects
    ensures r == s.(watch := r.watch, settingsEnabled := r.settingsEnabled, effects := r.effects)
  {
    var effects := if s.watch.Some? then s.effects + [ClearWatch(s.watch.value)] else s.effects;
    s.(watch := None, settingsEnabled := false, effects := effects)
  }

  /** `toggleTracking` behind the tracking button, which is disabled while the status is not connected. */
  function OnTrackingButton(s: Tracker, geolocationSupported: bool, watchId: int): (r: Tracker)
    ensures !s.status.connected ==> r == s
    ensures s.status.connected ==> r.trackingEnabled == !s.trackingEnabled
  {
    if !s.status.connected then s
    else if s.trackingEnabled then StopTracking(s).(trackingEnabled := false)
    else StartTracking(s, geolocationSupported, watchId).(trackingEnabled := true)
  }

  /** The connection button: disconnect when the status says connected, connect otherwise. */
  function OnConnectionButton(s: Tracker): (r: Tracker)
    ensures s.status.connected ==> r.link == NoSocket
    ensures !s.status.connected ==> r.link == Open(false)
    ensures r == s.(link := r.link)
  {
    if s.status.connected then DisconnectSocket(s) else ConnectSocket(s)
  }

  /** The unmount clean-up: stop tracking, then disconnect. */
  function OnUnmount(s: Tracker): (r: Tracker)
    ensures r.watch == None && r.link == NoSocket && !r.settingsEnabled
    ensures s.watch.Some? ==> r.effects == s.effects + [ClearWatch(s.watch.value)]
    ensures s.watch.None? ==> r.effects == s.effects
    ensures r == s.(watch := r.watch, settingsEnabled := r.settingsEnabled, effects := r.effects, link := r.link)
  {
    DisconnectSocket(StopTracking(s))
  }

  /** The number shown on the users chip: the peers plus the local user while tracking. */
  function TotalUsers(s: Tracker): (n: nat)
    ensures n >= |s.peers|
    ensures n == |s.peers| <==> !s.trackingEnabled
  {
    |s.peers| + if s.trackingEnabled then 1 else 0
  }

  // ---------------------------------------------------------------------------------------------
  // Dispatch

  function Step(s: Tracker, e: Event): Tracker {
    match e
    case SocketLifecycle(l) => OnSocketLifecycle(s, l)
    case LocationUpdate(d) => OnLocationUpdate(s, d)
    case UserDisconnected(id) => OnUserDisconnected(s, id)
    case ConnectedUsers(users) => OnConnectedUsers(s, users)
    case PositionFix(fix, now, battery) => OnPositionFix(s, fix, now, battery)
    case PositionError(m) => OnPositionError(s, m)
    case TrackingButton(supported, watchId) => OnTrackingButton(s, supported, watchId)
    case ConnectionButton => OnConnectionButton(s)
    case Unmount => OnUnmount(s)
  }

  function Run(s: Tracker, events: seq<Event>): Tracker
    decreases |events|
  {
    if |events| == 0 then s else Run(Step(s, events[0]), events[1..])
  }

  // ---------------------------------------------------------------------------------------------
  // Properties

  /** A sample from another participant leaves exactly one entry for it, the sample itself, at the end; every
      other entry survives with its multiplicity and in its order; distinct ids stay distinct. */
  lemma PeerLocationUpdate(peers: seq<LocationData>, d: LocationData)
    ensures var r := UpsertPeer(peers, d);
      && r[|r| - 1] == d
      && (forall i :: 0 <= i < |r| ==> (r[i].userId == d.userId <==> i == |r| - 1))
      && IsSubsequence(r[..|r| - 1], peers)
      && (forall x: LocationData :: x.userId != d.userId ==> multiset(r)[x] == multiset(peers)[x])
      && (DistinctKeys(peers, PeerId) ==> DistinctKeys(r, PeerId))
  {
    var r := UpsertPeer(peers, d);
    var kept := RemoveKey(peers, PeerId, d.userId);
    assert r[..|r| - 1] == kept;
    RemoveKeyIsSubsequence(peers, PeerId, d.userId);
    RemoveKeyCounts(peers, PeerId, d.userId);
    assert multiset(r) == multiset(kept) + multiset([d]);
    if DistinctKeys(peers, PeerId) {
      RemoveKeyDistinct(peers, PeerId, d.userId);
    }
  }

  /** After a peer's sample (map present) its marker carries the sample's time and is not the local user's;
      no other marker changes. */
  lemma PeerMarkerUpdate(s: Tracker, d: LocationData)
    requires Valid(s) && s.mapReady && d.userId != s.selfId
    ensures var r := OnLocationUpdate(s, d);
      && d.userId in r.markers && r.markers[d.userId].lastUpdate == d.timestamp
      && !r.markers[d.userId].isCurrentUser
      && (forall k :: k in s.markers && k != d.userId ==> k in r.markers && r.markers[k] == s.markers[k])
  {
  }

  /** `userDisconnected(id)`: every entry and the marker for `id` go; all else survives in order with its
      multiplicity; for an id that is neither listed nor marked nothing changes at all. */
  lemma UserDisconnectedRemoves(s: Tracker, id: string)
    ensures var r := OnUserDisconnected(s, id);
      && (forall i :: 0 <= i < |r.peers| ==> r.peers[i].userId != id)
      && IsSubsequence(r.peers, s.peers)
      && (forall x: LocationData :: x.userId != id ==> multiset(r.peers)[x] == multiset(s.peers)[x])
      && r.markers.Keys == s.markers.Keys - {id}
      && ((forall i :: 0 <= i < |s.peers| ==> s.peers[i].userId != id) && id !in s.markers ==> r == s)
  {
    RemoveKeyIsSubsequence(s.peers, PeerId, id);
    RemoveKeyCounts(s.peers, PeerId, id);
    if (forall i :: 0 <= i < |s.peers| ==> s.peers[i].userId != id) {
      RemoveAbsentKey(s.peers, PeerId, id);
    }
  }

  /** Disconnecting the same id twice is the same as once. */
  lemma UserDisconnectedIdempotent(s: Tracker, id: string)
    ensures OnUserDisconnected(OnUserDisconnected(s, id), id) == OnUserDisconnected(s, id)
  {
    RemoveKeyIdempotent(s.peers, PeerId, id);
  }

  /** `connectedUsers(users)`: the new list is the roster without the local user's entries, in roster order and
      with the roster's duplicates; what the list held before does not matter. */
  lemma RosterReplacesPeers(s: Tracker, t: Tracker, users: seq<LocationData>)
    requires s.selfId == t.selfId
    ensures var r := OnConnectedUsers(s, users);
      && IsSubsequence(r.peers, users)
      && (forall x: LocationData :: multiset(r.peers)[x] == if x.userId != s.selfId then multiset(users)[x] else 0)
      && r.peers == OnConnectedUsers(t, users).peers
  {
    RemoveKeyIsSubsequence(users, PeerId, s.selfId);
    RemoveKeyCounts(users, PeerId, s.selfId);
  }

  /** The local user's own sample never reaches the peer list or the markers through the socket. */
  lemma EchoSuppressed(s: Tracker, d: LocationData)
    requires d.userId == s.selfId
    ensures Step(s, LocationUpdate(d)) == s
  {
  }

  /** A sample is emitted only while a connected socket exists, and it is always the local user's. */
  lemma EmitOnlyWhileConnected(s: Tracker, e: Event)
    requires Valid(s)
    ensures var r := Step(s, e);
      |r.effects| >= |s.effects| && r.effects[..|s.effects|] == s.effects
      && (forall i :: |s.effects| <= i < |r.effects| && r.effects[i].EmitLocation? ==>
            s.link == Open(true) && r.effects[i].data.userId == s.selfId)
  {
  }

  /** Stopping tracking twice: the second call clears nothing and changes nothing. */
  lemma StopTrackingTwice(s: Tracker)
    ensures StopTracking(StopTracking(s)) == StopTracking(s)
    ensures |StopTracking(s).effects| <= |s.effects| + 1
  {
  }

  /** Every event preserves the invariant. */
  lemma StepPreservesValid(s: Tracker, e: Event)
    requires Valid(s)
    ensures Valid(Step(s, e))
  {
    match e
    case LocationUpdate(d) =>
      if d.userId != s.selfId {
        var r := OnLocationUpdate(s, d);
        forall i | 0 <= i < |r.peers|
          ensures r.peers[i].userId != s.selfId
          ensures s.mapReady ==> r.peers[i].userId in r.markers
        {
          if i < |r.peers| - 1 {
            assert r.peers[i] in s.peers;
          }
        }
      }
    case UserDisconnected(id) =>
      var r := OnUserDisconnected(s, id);
      forall i | 0 <= i < |r.peers|
        ensures r.peers[i].userId != s.selfId
        ensures s.mapReady ==> r.peers[i].userId in r.markers
      {
        assert r.peers[i] in s.peers;
      }
    case ConnectedUsers(users) =>
      var r := OnConnectedUsers(s, users);
      forall i | 0 <= i < |r.peers|
        ensures s.mapReady ==> r.peers[i].userId in r.markers
      {
        assert r.peers[i] in users;
      }
    case PositionFix(fix, now, battery) =>
      var r := OnPositionFix(s, fix, now, battery);
      assert forall i :: 0 <= i < |s.effects| ==> r.effects[i] == s.effects[i];
    case TrackingButton(supported, watchId) =>
      var r := OnTrackingButton(s, supported, watchId);
      assert forall i :: 0 <= i < |s.effects| ==> r.effects[i] == s.effects[i];
    case Unmount =>
      var r := OnUnmount(s);
      assert forall i :: 0 <= i < |s.effects| ==> r.effects[i] == s.effects[i];
    case _ =>
  }

  /** The invariant holds after any sequence of events from a freshly mounted component. */
  lemma {:induction false} RunPreservesValid(s: Tracker, events: seq<Event>)
    requires Valid(s)
    ensures Valid(Run(s, events))
    decreases |events|
  {
    if |events| > 0 {
      StepPreservesValid(s, events[0]);
      RunPreservesValid(Step(s, events[0]), events[1..]);
    }
  }

  /** Scenario: roster [B, C] arrives while the local id is "B"; only C's sample is listed. */
  lemma RosterExcludesSelf(b: LocationData, c: LocationData)
    requires b.userId == "B" && c.userId == "C"
    ensures OnConnectedUsers(Init("B", true), [b, c]).peers == [c]
  {
    assert [b, c][1..] == [c];
    assert [c][1..] == [];
    assert RemoveKey([c], PeerId, "B") == [c];
  }
  /** No stale-update rejection: a sample older than the stored one for the same participant still replaces it. */
  lemma OlderSampleReplaces(s: Tracker, stored: LocationData, d: LocationData)
    requires d.userId != s.selfId && stored in s.peers && stored.userId == d.userId
    requires d.timestamp < stored.timestamp
    ensures var r := OnLocationUpdate(s, d);
      stored !in r.peers && r.peers[|r.peers| - 1] == d
  {
  }

  /** A peer's sample is applied whether or not a socket is held: the handlers do not look at `socketRef`. */
  lemma UpdateWithoutSocket(s: Tracker, d: LocationData)
    requires s.link == NoSocket && d.userId != s.selfId
    ensures var r := Step(s, LocationUpdate(d));
      r.link == NoSocket && |r.peers| > 0 && r.peers[|r.peers| - 1] == d
  {
  }
}
